=== FILE: README.md ===
# Markdown optimizer, modelled in Dafny

This project models `MarkdownOptimizer` from `markdown-optimizer/scripts/optimize_markdown.py`.
The optimizer rewrites a Markdown document for consumption by a language model, in four steps:

1. It normalises the heading hierarchy, so that no heading skips a level.
2. It removes noise: horizontal rules and runs of blank lines.
3. It cuts off any existing YAML front-matter.
4. It puts a new front-matter header in front of the body. The header holds the title, a token estimate, key concepts, a table of contents and diagram suggestions.

Every step is a pure text transform. The model states each one over `seq<string>` lines, and the modules follow the steps:

- `Text` models the parts of Python's `str` and `re` that the optimizer uses: `isspace`, `strip`, `lstrip('\n')`, `lower` and `str(n)`. It also models the search for the next `---` inside `split('---', 2)`, as `FindFrom`.
- `Lines` models `split('\n')` and `'\n'.join`, with their round trips.
- `Headings` models the heading pattern `^(#{1,6})\s+(.+)$` and `extract_headings`.
- `Hierarchy` models `normalize_heading_hierarchy`. The pass over the headings and the rewrite of their lines are fused into one pass over the lines.
- `Toc` models `generate_toc` and its anchor slugging.
- `Noise` models `remove_noise`, as the loop's state `(in front-matter, number of --- lines seen, lines kept)` folded over the lines.
- `Frontmatter` models `estimate_tokens`, the title choice and `generate_frontmatter`. It also has readers that take each section of the header back apart.
- `Optimizer` models `optimize`: stripping an old header, computing the metadata of the body, and assembling header and body.

Two operations are parameters of the model:

- `extract_key_concepts`, passed as `conceptsOf`;
- `identify_diagram_opportunities`, passed as `diagramsOf`.

`Path(source_path).stem` is the parameter `stem`.

## Model

| member | source | states |
|---|---|---|
| Lines.JoinSplit | markdown-optimizer/scripts/optimize_markdown.py:26 | Joining the lines of a split with newlines gives the original text back |
| Lines.SplitJoin | markdown-optimizer/scripts/optimize_markdown.py:76 | Splitting newline-free lines joined with newlines gives the same lines back |
| Headings.MatchHeadingIff | markdown-optimizer/scripts/optimize_markdown.py:34 | The heading matcher accepts a line exactly when it starts with 1 to 6 `#`, then a whitespace character, then at least one more character |
| Headings.MatchHeadingRejects | markdown-optimizer/scripts/optimize_markdown.py:34 | A line with seven or more leading `#`, or with no whitespace right after its `#` run, is not a heading |
| Headings.MatchHeadingShape | markdown-optimizer/scripts/optimize_markdown.py:34-37 | A match consists of the whole `#` run as the level, a non-empty blank gap, and a captured text that ends the line and does not start with whitespace unless it is one character long |
| Headings.ExtractHeadings | markdown-optimizer/scripts/optimize_markdown.py:30-43 | Every entry describes its line: the level is the length of the `#` run, 1 to 6, and the text is the stripped capture. Entries come in strictly increasing line order, and every heading line has an entry |
| Hierarchy.NormalizeLevelsSpec | markdown-optimizer/scripts/optimize_markdown.py:54-66 | The level pass never raises a level and leaves no skip. A level that does not skip is kept, and a skipping one becomes one deeper than the level before it |
| Hierarchy.NormalizeLevelsFixed | markdown-optimizer/scripts/optimize_markdown.py:54-66 | The level pass leaves a sequence of levels unchanged exactly when it has no skip |
| Hierarchy.NormalizeLevelsIdempotent | markdown-optimizer/scripts/optimize_markdown.py:54-66 | Running the level pass on its own output changes nothing |
| Hierarchy.MatchHeadingLine | markdown-optimizer/scripts/optimize_markdown.py:74 | A rewritten heading line `'#' * level + ' ' + text` is matched again with that level and that text |
| Hierarchy.NormalizeHeadingHierarchyIsPass | markdown-optimizer/scripts/optimize_markdown.py:50-51 | The early return for a document without headings gives the same result as the pass over its lines would |
| Hierarchy.NormalizeFromPlain | markdown-optimizer/scripts/optimize_markdown.py:50-51 | Lines without a heading are left exactly as they are |
| Hierarchy.NormalizeHeadingHierarchyLines | markdown-optimizer/scripts/optimize_markdown.py:69-76 | The number of lines is kept and every non-heading line is unchanged. Each heading line is rewritten as `'#' * level + ' ' + text`, with its own captured text and a level no higher than before |
| Hierarchy.NormalizeHeadingHierarchyHeadings | markdown-optimizer/scripts/optimize_markdown.py:54-76 | Reading the headings of the result gives the original headings, on the same lines and with the same text, at the levels the pass assigned |
| Hierarchy.NormalizeHeadingHierarchyNoSkip | markdown-optimizer/scripts/optimize_markdown.py:54-76 | The result has as many headings as the input, none deeper than before. The first is at level 1 or 2 and each later one is at most one deeper than the one before it |
| Hierarchy.NormalizeHeadingHierarchyIdempotent | markdown-optimizer/scripts/optimize_markdown.py:45-76 | Normalising a normalised document changes nothing |
| Toc.CollapseSeparators | markdown-optimizer/scripts/optimize_markdown.py:87 | The result is empty only for empty input, starts with `-` exactly when the input starts with a dash or whitespace, and has no whitespace and no two dashes in a row |
| Toc.CollapseIsMark | markdown-optimizer/scripts/optimize_markdown.py:87 | Collapsing equals an independent character-by-character reference. In it each dash or whitespace character becomes `-` unless the character before it is one too, and every other character stays, so each maximal run becomes exactly one `-` in its place |
| Toc.CollapseExample | markdown-optimizer/scripts/optimize_markdown.py:87 | The space in `"a b"` becomes a dash, giving `"a-b"` |
| Toc.CollapseKeeps | markdown-optimizer/scripts/optimize_markdown.py:87 | Collapsing keeps every character other than dashes and whitespace, in order |
| Toc.CollapseFixed | markdown-optimizer/scripts/optimize_markdown.py:87 | Collapsing leaves a string unchanged exactly when it has no whitespace and no two dashes in a row |
| Toc.AnchorSpec | markdown-optimizer/scripts/optimize_markdown.py:85-87 | An anchor holds only lower-case letters, digits, `_` and single dashes. It keeps every letter, digit and `_` of the lower-cased text, in order. It equals the reference applied to the lower-cased text with everything but word characters, whitespace and `-` removed |
| Toc.AnchorIdempotent | markdown-optimizer/scripts/optimize_markdown.py:85-87 | Making an anchor from an anchor gives the same anchor |
| Toc.GenerateToc | markdown-optimizer/scripts/optimize_markdown.py:78-95 | There is one entry per extracted heading, in order, with the heading's level (1 to 6) and text. Each entry's anchor is the anchor of its text, and is well formed |
| Noise.RunFences | markdown-optimizer/scripts/optimize_markdown.py:176-186 | The count of the loop is the number of `---` lines seen. The front-matter flag is set exactly when exactly one `---` line has been seen |
| Noise.RunSubsequence | markdown-optimizer/scripts/optimize_markdown.py:179-199 | The kept lines are a subsequence of the input lines, in order |
| Noise.SubsequenceLength | markdown-optimizer/scripts/optimize_markdown.py:179-199 | A subsequence is never longer than the lines it is taken from |
| Noise.RunNoAdjacentBlanks | markdown-optimizer/scripts/optimize_markdown.py:194-197 | No two kept lines in a row are blank |
| Noise.RunKeepsBlank | markdown-optimizer/scripts/optimize_markdown.py:194-199 | A blank line is kept exactly when nothing is kept yet or the last kept line is not blank. So a blank line never follows a kept blank line, and the first blank line after a kept non-blank line is always kept. Runs of blank lines separated only by dropped rules merge into one |
| Noise.RunSqueezes | markdown-optimizer/scripts/optimize_markdown.py:179-199 | On lines without horizontal rules, the result equals an independent reference. The reference keeps every line except a blank line whose predecessor in the input is blank |
| Noise.RunKeepsFirstFences | markdown-optimizer/scripts/optimize_markdown.py:181-186 | The `---` lines kept are exactly the first two `---` lines of the input |
| Noise.RunKeepsRules | markdown-optimizer/scripts/optimize_markdown.py:181-192 | The horizontal-rule lines that are kept are the first two `---` lines, plus every other rule met after the first `---` line and before a second one. When there is no second, that stretch runs to the end of the document. Every other rule is dropped |
| Noise.RunKeepsContent | markdown-optimizer/scripts/optimize_markdown.py:188-199 | Every line that is neither blank nor a rule is kept, in order |
| Noise.RemoveNoiseLines | markdown-optimizer/scripts/optimize_markdown.py:165-201 | The result is an order-preserving subsequence of the input lines, no longer than it, with no two adjacent blank lines |
| Noise.RemoveNoiseLinesIdempotent | markdown-optimizer/scripts/optimize_markdown.py:165-201 | Removing noise from lines that were already cleaned changes nothing |
| Noise.RemoveNoiseIdempotent | markdown-optimizer/scripts/optimize_markdown.py:165-201 | Removing noise from a document twice is the same as removing it once |
| Frontmatter.EstimateTokens | markdown-optimizer/scripts/optimize_markdown.py:108-110 | The estimate `n` satisfies `4n <= len(text) < 4n + 4`, which is `len(text) // 4` |
| Frontmatter.FirstH1 | markdown-optimizer/scripts/optimize_markdown.py:211 | The result is the position of the first level-1 heading, or nothing exactly when there is no level-1 heading |
| Frontmatter.TitleSpec | markdown-optimizer/scripts/optimize_markdown.py:211-212 | The title is the text of the first level-1 heading. Without one, it is the stem of the source path, or "Untitled" when the path is empty |
| Frontmatter.FrontmatterHeader | markdown-optimizer/scripts/optimize_markdown.py:215-246 | The header opens and closes with `---` and then holds the quoted title and `tokens: ` followed by digits that denote the estimate. Next comes the `optimized_for_llm: true` flag. Its size is five lines, plus one heading line and min(5, n) items for n > 0 concepts, one heading line and one line per TOC entry, and one heading line and two lines per diagram suggestion |
| Frontmatter.SectionSizes | markdown-optimizer/scripts/optimize_markdown.py:225-244 | Each optional section is empty when it has nothing to list. Otherwise it is a heading line plus up to five concept lines, one line per TOC entry, or two lines per diagram suggestion |
| Text.StripSlice | markdown-optimizer/scripts/optimize_markdown.py:37 | What `strip()` leaves is a contiguous slice of the string, with only whitespace before and after it |
| Text.DecimalRoundTrip | markdown-optimizer/scripts/optimize_markdown.py:220 | Reading back the decimal digits written for a count gives the count |
| Frontmatter.FrontmatterConcepts | markdown-optimizer/scripts/optimize_markdown.py:225-229 | The `concepts:` line is present exactly when there are concepts. The items under it read back as the first five concepts |
| Frontmatter.ReadConceptItems | markdown-optimizer/scripts/optimize_markdown.py:228-229 | Concept items followed by a line that is not an item read back as exactly the concepts |
| Frontmatter.FrontmatterToc | markdown-optimizer/scripts/optimize_markdown.py:231-237 | The `toc:` line is present exactly when there are entries. It is followed by one line per entry, in order, each reading back as that entry's level and text |
| Frontmatter.ReadTocLineRoundTrip | markdown-optimizer/scripts/optimize_markdown.py:236-237 | A TOC line, indented by `2*(level-1)` spaces and written as `- text`, reads back as its level and text |
| Frontmatter.Indent | markdown-optimizer/scripts/optimize_markdown.py:236 | The indent of a level-`l` entry is `2*(l-1)` spaces |
| Frontmatter.FrontmatterDiagrams | markdown-optimizer/scripts/optimize_markdown.py:239-244 | The `suggested_diagrams:` line is present exactly when there are suggestions. It is followed by two lines per suggestion, which read back as its heading and kind |
| Frontmatter.ReadDiagramRoundTrip | markdown-optimizer/scripts/optimize_markdown.py:243-244 | The two lines written for a suggestion read back as its heading and kind |
| Frontmatter.ReadKindRoundTrip | markdown-optimizer/scripts/optimize_markdown.py:148-155 | The name written for a diagram kind reads back as that kind |
| Frontmatter.GenerateFrontmatter | markdown-optimizer/scripts/optimize_markdown.py:215-248 | The joined header starts with `---` and a newline, and ends with a newline and `---` |
| Frontmatter.SplitFrontmatter | markdown-optimizer/scripts/optimize_markdown.py:215-248 | When the quoted values are single lines, splitting the joined header gives back exactly its lines |
| Frontmatter.InnerNoTripleDash | markdown-optimizer/scripts/optimize_markdown.py:216-244 | When no value in the header contains `---`, the text between the opening and the closing `---` contains no `---` either |
| Optimizer.StripFrontmatter | markdown-optimizer/scripts/optimize_markdown.py:259-262 | The result is a suffix of the content. Content that does not start with `---` is unchanged, and a changed result never starts with a newline |
| Optimizer.StripFrontmatterCut | markdown-optimizer/scripts/optimize_markdown.py:259-262 | Content that does not start with `---`, or that has no `---` from index 3 on, is unchanged. Otherwise the cut falls right after the first `---` found from index 3, and leading newlines after it go |
| Optimizer.StripEmptyHeader | markdown-optimizer/scripts/optimize_markdown.py:259-262 | An empty header `---\n---` is cut off, whatever follows it |
| Optimizer.StripUnclosedHeader | markdown-optimizer/scripts/optimize_markdown.py:259-262 | Content made of `---` followed by some rest is returned unchanged exactly when the rest contains no `---`, because `split('---', 2)` then gives fewer than three parts |
| Optimizer.StripFrontmatterOf | markdown-optimizer/scripts/optimize_markdown.py:259-262 | Stripping a `---`-delimited block whose inside has no `---` leaves what follows it, without leading newlines |
| Optimizer.MetadataOf | markdown-optimizer/scripts/optimize_markdown.py:265-267 | The metadata are computed from the stripped body: the title chosen from its headings, its token estimate, its concepts and its diagram suggestions. The TOC has one entry per heading of the body, with that heading's level and text and the anchor of the text |
| Optimizer.Assemble | markdown-optimizer/scripts/optimize_markdown.py:270 | The result starts with `---` and a newline, and ends with the whole body |
| Optimizer.AssembleRoundTrip | markdown-optimizer/scripts/optimize_markdown.py:259-270 | Stripping the front-matter of an assembled document gives its body back, without leading newlines, when the header's values contain no `---` |
| Optimizer.AssembleLines | markdown-optimizer/scripts/optimize_markdown.py:215-270 | When the header's values are single lines, the lines of an assembled document are the header's lines, one blank line, then the body's lines |
| Optimizer.OptimizeRoundTrip | markdown-optimizer/scripts/optimize_markdown.py:250-272 | Stripping the front-matter of the optimizer's output gives back the normalised, cleaned and stripped body, when the header's values contain no `---` |
| Optimizer.OptimizeLines | markdown-optimizer/scripts/optimize_markdown.py:250-272 | The optimizer's output splits into the header's lines for the body's metadata, one blank line, then the body's lines |

## Left out

- `main` (lines 275-307) is left out: it handles arguments, reads and writes files, and prints statistics, which is I/O only.
- `extract_key_concepts` is a parameter (`conceptsOf`). It depends on `Counter.most_common` tie ordering and Unicode regex classes. Only the step that writes its first five results into the header is modelled.
- `identify_diagram_opportunities` is a parameter (`diagramsOf`). It is a keyword heuristic with no stated contract. Only the kinds it can produce and the way the header writes them are modelled.
- `Path(...).stem` is a parameter (`stem`), because it is a library call.
- Character classes are ASCII. Python's `\w`, `\s`, `isspace` and `lower()` on non-ASCII characters are not modelled.
- The mutable object state (`self.lines`, `self.original_content`, `self.metadata`) is replaced by passing the document explicitly. `optimize` reassigns both fields before generating the header, so the metadata come from the stripped body, as in `Optimizer.MetadataOf`.
- The release-packaging pipeline is outside `MarkdownOptimizer` and is not modelled. Its version extractor, `.github/scripts/extract-version.py`, is a separate script that the optimizer never calls.
- Optimizer.OptimizeRoundTrip: it requires that no value written into the header contains `---`. Without that, stripping the output cuts at the first `---` inside the header, so the round trip genuinely fails; it is not a weakness of the proof.
- Optimizer.OptimizeLines: it requires that the header's values contain no newline. A heading text never contains one, but concepts, diagram headings and the path stem come from parameters.
- Optimizer.Optimize: it carries no `ensures` of its own. Its properties are stated by Optimizer.OptimizeRoundTrip and Optimizer.OptimizeLines, and through Optimizer.Assemble, which it is defined by.
- Frontmatter.FrontmatterToc: it requires every entry level to be at least 1. Every entry `generate_toc` produces satisfies this, because heading levels run from 1 to 6.

=== FILE: frontmatter.dfy ===
/**
 * `generate_frontmatter` and `estimate_tokens`: the YAML header the optimizer
 * puts in front of a document, built line by line, and readers that take
 * each of its sections back apart.
 */
module Frontmatter {
  import opened Text
  import opened Lines
  import opened Headings
  import opened Toc

  /** The kinds of diagram `identify_diagram_opportunities` suggests. */
  datatype DiagramKind = Flowchart | Graph | Architecture

  /** One suggestion: the heading of the section, the kind, the heading's line. */
  datatype Diagram = Diagram(heading: string, kind: DiagramKind, line: nat)

  function KindName(kind: DiagramKind): string
  {
    match kind
    case Flowchart => "flowchart"
    case Graph => "graph"
    case Architecture => "architecture"
  }

  /** `estimate_tokens`: one token per four characters, rounded down. */
  function EstimateTokens(text: string): (n: nat)
    ensures 4 * n <= |text| < 4 * n + 4
  {
    |text| / 4
  }

  /** The position of the first level-1 heading, if there is one. */
  function FirstH1(hs: seq<Heading>): (r: Option<nat>)
    ensures r.Some? ==> r.value < |hs| && hs[r.value].level == 1
    ensures r.Some? ==> forall k :: 0 <= k < r.value ==> hs[k].level != 1
    ensures r.None? ==> forall k :: 0 <= k < |hs| ==> hs[k].level != 1
  {
    if |hs| == 0 then None
    else if hs[0].level == 1 then Some(0)
    else
      match FirstH1(hs[1..])
      case None => None
      case Some(k) => Some(k + 1)
  }

  /** The title: the text of the first level-1 heading, otherwise the stem of
      the source file name, otherwise "Untitled". Taking the stem of a path is
      the parameter `stem`. */
  function Title(hs: seq<Heading>, sourcePath: string, stem: string -> string): string
  {
    match FirstH1(hs)
    case Some(k) => hs[k].text
    case None => if sourcePath != "" then stem(sourcePath) else "Untitled"
  }

  /** The title is the text of the first level-1 heading when there is one,
      and only otherwise the stem of the path or "Untitled". */
  lemma TitleSpec(hs: seq<Heading>, sourcePath: string, stem: string -> string)
    ensures (exists k :: 0 <= k < |hs| && hs[k].level == 1) ==>
      exists k :: 0 <= k < |hs| && hs[k].level == 1 && Title(hs, sourcePath, stem) == hs[k].text
        && forall i :: 0 <= i < k ==> hs[i].level != 1
    ensures (forall k :: 0 <= k < |hs| ==> hs[k].level != 1) ==>
      Title(hs, sourcePath, stem) == if sourcePath != "" then stem(sourcePath) else "Untitled"
  {
  }

  /** `'  ' * (level - 1)`: two spaces for each level below the first.
      Repeating a string a negative number of times gives "". */
  function Indent(level: nat): (r: string)
    ensures |r| == if level == 0 then 0 else 2 * (level - 1)
    ensures forall i :: 0 <= i < |r| ==> r[i] == ' '
  {
    if level == 0 then "" else Repeat(' ', 2 * (level - 1))
  }

  function ConceptLine(concept: string): string
  {
    "  - " + concept
  }

  function TocLine(entry: TocEntry): string
  {
    Indent(entry.level) + "- " + entry.text
  }

  function ConceptItems(concepts: seq<string>): (r: seq<string>)
    ensures |r| == |concepts|
  {
    if |concepts| == 0 then [] else [ConceptLine(concepts[0])] + ConceptItems(concepts[1..])
  }

  function TocItems(toc: seq<TocEntry>): (r: seq<string>)
    ensures |r| == |toc|
    ensures forall k :: 0 <= k < |toc| ==> r[k] == TocLine(toc[k])
  {
    if |toc| == 0 then [] else [TocLine(toc[0])] + TocItems(toc[1..])
  }

  function DiagramItems(diagrams: seq<Diagram>): (r: seq<string>)
    ensures |r| == 2 * |diagrams|
  {
    if |diagrams| == 0 then []
    else
      ["  - section: \"" + diagrams[0].heading + "\"", "    type: " + KindName(diagrams[0].kind)]
      + DiagramItems(diagrams[1..])
  }

  /** The `concepts:` section, listing at most the first five concepts;
      nothing when there are none. */
  function ConceptSection(concepts: seq<string>): seq<string>
  {
    if |concepts| == 0 then [] else ["concepts:"] + ConceptItems(concepts[..Min(5, |concepts|)])
  }

  function TocSection(toc: seq<TocEntry>): seq<string>
  {
    if |toc| == 0 then [] else ["toc:"] + TocItems(toc)
  }

  function DiagramSection(diagrams: seq<Diagram>): seq<string>
  {
    if |diagrams| == 0 then [] else ["suggested_diagrams:"] + DiagramItems(diagrams)
  }

  /** The first four lines: the opening `---`, the title, the token estimate
      and the flag. */
  function FixedLines(title: string, tokens: nat): seq<string>
  {
    ["---", "title: \"" + title + "\"", "tokens: " + NatToString(tokens), "optimized_for_llm: true"]
  }

  /** The lines of `generate_frontmatter`: the fixed lines, each section, and
      the closing `---`. */
  function FrontmatterLines(title: string, tokens: nat, concepts: seq<string>, toc: seq<TocEntry>, diagrams: seq<Diagram>): seq<string>
  {
    FixedLines(title, tokens) + (ConceptSection(concepts) + (TocSection(toc) + (DiagramSection(diagrams) + ["---"])))
  }

  /** The items of a list section read back: the leading lines that start with
      `"  - "`, without it. */
  function ReadItems(lines: seq<string>): (r: seq<string>)
    ensures |r| <= |lines|
  {
    if |lines| == 0 || !StartsWith(lines[0], "  - ") then [] else [lines[0][4..]] + ReadItems(lines[1..])
  }

  /** The concept items read back give the concepts, up to the next line
      that is not an item. */
  lemma {:induction false} ReadConceptItems(concepts: seq<string>, rest: seq<string>)
    requires |rest| == 0 || !StartsWith(rest[0], "  - ")
    ensures ReadItems(ConceptItems(concepts) + rest) == concepts
  {
    if |concepts| > 0 {
      var head := ConceptLine(concepts[0]);
      var tail := ConceptItems(concepts[1..]);
      ReadConceptItems(concepts[1..], rest);
      ReadConceptLine(concepts[0]);
      assert ConceptItems(concepts) == [head] + tail;
      Associate([head], tail, rest);
      DropPrefix([head], tail + rest);
      assert concepts == [concepts[0]] + concepts[1..];
    } else {
      assert ConceptItems(concepts) + rest == rest;
    }
  }

  /** The line written for concept `k`. */
  lemma {:induction false} ConceptItemsAt(concepts: seq<string>, k: nat)
    requires k < |concepts|
    ensures ConceptItems(concepts)[k] == ConceptLine(concepts[k])
  {
    if k > 0 {
      ConceptItemsAt(concepts[1..], k - 1);
    }
  }

  lemma ReadConceptLine(concept: string)
    ensures StartsWith(ConceptLine(concept), "  - ") && ConceptLine(concept)[4..] == concept
  {
  }

  /** A TOC line read back: the level from the width of the indent, the text
      after `"- "`. */
  function ReadTocLine(line: string): Option<(nat, string)>
  {
    var n := RunEnd(line, 0, IsPlainSpace);
    if n + 2 <= |line| && line[n..n + 2] == "- " && n % 2 == 0 then Some((n / 2 + 1, line[n + 2..]))
    else None
  }

  /** Reading a TOC line gives back the entry's level and text. */
  lemma ReadTocLineRoundTrip(entry: TocEntry)
    requires entry.level >= 1
    ensures ReadTocLine(TocLine(entry)) == Some((entry.level, entry.text))
  {
    var line := TocLine(entry);
    var n := 2 * (entry.level - 1);
    assert line[n] == '-';
    assert RunEnd(line, 0, IsPlainSpace) == n;
    assert line[n..n + 2] == "- " && line[n + 2..] == entry.text;
  }

  /** A section's size: a heading line and its items, or nothing. */
  lemma SectionSizes(concepts: seq<string>, toc: seq<TocEntry>, diagrams: seq<Diagram>)
    ensures |ConceptSection(concepts)| == if |concepts| == 0 then 0 else 1 + Min(5, |concepts|)
    ensures |TocSection(toc)| == if |toc| == 0 then 0 else 1 + |toc|
    ensures |DiagramSection(diagrams)| == if |diagrams| == 0 then 0 else 1 + 2 * |diagrams|
  {
  }

  /** The fixed lines of the header: `---` around it, then the title, the
      token estimate written in decimal, and the flag; in between, one line
      per concept up to five, one per TOC entry and two per diagram, each
      section with its own heading line when it is not empty. */
  lemma FrontmatterHeader(title: string, tokens: nat, concepts: seq<string>, toc: seq<TocEntry>, diagrams: seq<Diagram>)
    ensures var fm := FrontmatterLines(title, tokens, concepts, toc, diagrams);
      && |fm| == 5 + (if |concepts| == 0 then 0 else 1 + Min(5, |concepts|))
                   + (if |toc| == 0 then 0 else 1 + |toc|)
                   + (if |diagrams| == 0 then 0 else 1 + 2 * |diagrams|)
      && fm[0] == "---" && fm[|fm| - 1] == "---"
      && fm[1] == "title: \"" + title + "\""
      && |fm[2]| > 8 && fm[2][..8] == "tokens: "
      && IsDigits(fm[2][8..]) && DecimalValue(fm[2][8..]) == tokens
      && fm[3] == "optimized_for_llm: true"
  {
    var fm := FrontmatterLines(title, tokens, concepts, toc, diagrams);
    var digits := NatToString(tokens);
    SectionSizes(concepts, toc, diagrams);
    assert fm[2] == "tokens: " + digits;
    assert fm[2][8..] == digits;
    DecimalRoundTrip(tokens);
  }

  /** The concepts section, present exactly when there are concepts, reads
      back as the first five of them. */
  lemma FrontmatterConcepts(title: string, tokens: nat, concepts: seq<string>, toc: seq<TocEntry>, diagrams: seq<Diagram>)
    ensures var fm := FrontmatterLines(title, tokens, concepts, toc, diagrams);
      && (|concepts| > 0 <==> fm[4] == "concepts:")
      && (|concepts| > 0 ==> ReadItems(fm[5..]) == concepts[..Min(5, |concepts|)])
  {
    var fm := FrontmatterLines(title, tokens, concepts, toc, diagrams);
    var fixed := FixedLines(title, tokens);
    var section := ConceptSection(concepts);
    var rest := TocSection(toc) + (DiagramSection(diagrams) + ["---"]);
    DropPrefix(fixed, section + rest);
    assert rest[0] == "toc:" || rest[0] == "suggested_diagrams:" || rest[0] == "---";
    NotAnItem(rest[0]);
    if |concepts| > 0 {
      var top := concepts[..Min(5, |concepts|)];
      Associate(["concepts:"], ConceptItems(top), rest);
      Associate(fixed, ["concepts:"], ConceptItems(top) + rest);
      DropPrefix(fixed + ["concepts:"], ConceptItems(top) + rest);
      ReadConceptItems(top, rest);
    } else {
      assert fm[4] == rest[0];
    }
  }

  /** A line that starts with something other than a space is not a list item. */
  lemma NotAnItem(line: string)
    requires |line| > 0 && line[0] != ' '
    ensures !StartsWith(line, "  - ")
  {
    assert |line| < 4 || line[..4][0] == line[0];
  }

  /** The TOC section, present exactly when there are entries, lists each
      entry on its own line, indented by its level, in order. */
  lemma FrontmatterToc(title: string, tokens: nat, concepts: seq<string>, toc: seq<TocEntry>, diagrams: seq<Diagram>)
    requires forall k :: 0 <= k < |toc| ==> toc[k].level >= 1
    ensures var fm := FrontmatterLines(title, tokens, concepts, toc, diagrams);
      var at := 4 + |ConceptSection(concepts)|;
      && at < |fm|
      && (|toc| > 0 <==> fm[at] == "toc:")
      && (|toc| > 0 ==> at + |toc| < |fm| && forall k :: 0 <= k < |toc| ==>
            ReadTocLine(fm[at + 1 + k]) == Some((toc[k].level, toc[k].text)))
  {
    var fm := FrontmatterLines(title, tokens, concepts, toc, diagrams);
    var fixed, c, t := FixedLines(title, tokens), ConceptSection(concepts), TocSection(toc);
    var at := 4 + |c|;
    var rest := DiagramSection(diagrams) + ["---"];
    assert rest[0] == "suggested_diagrams:" || rest[0] == "---";
    if |toc| == 0 {
      PlacedLast(fixed, c, t, rest, 0);
    } else {
      PlacedThird(fixed, c, t, rest, 0);
      forall k | 0 <= k < |toc|
        ensures ReadTocLine(fm[at + 1 + k]) == Some((toc[k].level, toc[k].text))
      {
        PlacedThird(fixed, c, t, rest, 1 + k);
        ReadTocLineRoundTrip(toc[k]);
      }
    }
  }

  /** The name of a diagram kind read back. */
  function ReadKind(name: string): Option<DiagramKind>
  {
    if name == "flowchart" then Some(Flowchart)
    else if name == "graph" then Some(Graph)
    else if name == "architecture" then Some(Architecture)
    else None
  }

  lemma ReadKindRoundTrip(kind: DiagramKind)
    ensures ReadKind(KindName(kind)) == Some(kind)
  {
  }

  /** The two lines of one suggested diagram read back: the heading between
      the quotes of the first, the kind after `type: ` on the second. */
  function ReadDiagram(section: string, kind: string): Option<(string, DiagramKind)>
  {
    if |section| >= 15 && section[..14] == "  - section: \"" && section[|section| - 1] == '"'
      && |kind| >= 10 && kind[..10] == "    type: " && ReadKind(kind[10..]).Some?
    then Some((section[14..|section| - 1], ReadKind(kind[10..]).value))
    else None
  }

  /** The two lines written for a suggestion read back as it. */
  lemma ReadDiagramRoundTrip(d: Diagram)
    ensures ReadDiagram("  - section: \"" + d.heading + "\"", "    type: " + KindName(d.kind)) == Some((d.heading, d.kind))
  {
    var section := "  - section: \"" + d.heading + "\"";
    var kind := "    type: " + KindName(d.kind);
    assert section[..14] == "  - section: \"" && section[14..|section| - 1] == d.heading;
    assert kind[..10] == "    type: " && kind[10..] == KindName(d.kind);
    ReadKindRoundTrip(d.kind);
  }

  /** The diagram section, present exactly when there are suggestions, holds
      two lines per suggestion that read back as its heading and kind. */
  lemma FrontmatterDiagrams(title: string, tokens: nat, concepts: seq<string>, toc: seq<TocEntry>, diagrams: seq<Diagram>)
    ensures var fm := FrontmatterLines(title, tokens, concepts, toc, diagrams);
      var at := 4 + |ConceptSection(concepts)| + |TocSection(toc)|;
      && at < |fm|
      && (|diagrams| > 0 <==> fm[at] == "suggested_diagrams:")
      && (|diagrams| > 0 ==> at + 2 * |diagrams| < |fm| && forall k :: 0 <= k < |diagrams| ==>
            ReadDiagram(fm[at + 1 + 2 * k], fm[at + 2 + 2 * k]) == Some((diagrams[k].heading, diagrams[k].kind)))
  {
    DiagramsPlaced(FixedLines(title, tokens), ConceptSection(concepts), TocSection(toc), diagrams);
  }

  /** The diagram section read back from its place after any run of lines. */
  lemma DiagramsPlaced(fixed: seq<string>, c: seq<string>, t: seq<string>, diagrams: seq<Diagram>)
    ensures var fm := fixed + (c + (t + (DiagramSection(diagrams) + ["---"])));
      var at := |fixed| + |c| + |t|;
      && at < |fm|
      && (|diagrams| > 0 <==> fm[at] == "suggested_diagrams:")
      && (|diagrams| > 0 ==> at + 2 * |diagrams| < |fm| && forall k :: 0 <= k < |diagrams| ==>
            ReadDiagram(fm[at + 1 + 2 * k], fm[at + 2 + 2 * k]) == Some((diagrams[k].heading, diagrams[k].kind)))
  {
    var section := DiagramSection(diagrams);
    var rest := section + ["---"];
    var fm := fixed + (c + (t + rest));
    var at := |fixed| + |c| + |t|;
    PlacedLast(fixed, c, t, rest, 0);
    forall k | 0 <= k < |diagrams|
      ensures ReadDiagram(fm[at + 1 + 2 * k], fm[at + 2 + 2 * k]) == Some((diagrams[k].heading, diagrams[k].kind))
    {
      PlacedLast(fixed, c, t, rest, 1 + 2 * k);
      PlacedLast(fixed, c, t, rest, 2 + 2 * k);
      assert rest[1 + 2 * k] == section[1 + 2 * k] && rest[2 + 2 * k] == section[2 + 2 * k];
      DiagramSectionAt(diagrams, k);
    }
  }

  /** The pair of lines of the diagram section for suggestion `k` reads back
      as it. */
  lemma DiagramSectionAt(diagrams: seq<Diagram>, k: nat)
    requires k < |diagrams|
    ensures ReadDiagram(DiagramSection(diagrams)[1 + 2 * k], DiagramSection(diagrams)[2 + 2 * k]) == Some((diagrams[k].heading, diagrams[k].kind))
  {
    DiagramItemsAt(diagrams, k);
    ReadDiagramRoundTrip(diagrams[k]);
  }

  /** The two lines written for suggestion `k`. */
  lemma {:induction false} DiagramItemsAt(diagrams: seq<Diagram>, k: nat)
    requires k < |diagrams|
    ensures DiagramItems(diagrams)[2 * k] == "  - section: \"" + diagrams[k].heading + "\""
    ensures DiagramItems(diagrams)[2 * k + 1] == "    type: " + KindName(diagrams[k].kind)
  {
    if k > 0 {
      DiagramItemsAt(diagrams[1..], k - 1);
    }
  }

  /** `generate_frontmatter`: the header lines joined with newlines. */
  function GenerateFrontmatter(title: string, tokens: nat, concepts: seq<string>, toc: seq<TocEntry>, diagrams: seq<Diagram>): (fm: string)
    ensures |fm| >= 8 && fm[..4] == "---\n" && fm[|fm| - 4..] == "\n---"
  {
    var lines := FrontmatterLines(title, tokens, concepts, toc, diagrams);
    FrontmatterJoin(lines);
    Join(lines)
  }

  /** The lines of the header between the two `---`. */
  function Inner(title: string, tokens: nat, concepts: seq<string>, toc: seq<TocEntry>, diagrams: seq<Diagram>): seq<string>
  {
    var lines := FrontmatterLines(title, tokens, concepts, toc, diagrams);
    lines[1..|lines| - 1]
  }

  /** Joined, a header is `---`, a newline, its inner lines joined, a newline
      and `---`. */
  lemma FrontmatterJoin(lines: seq<string>)
    requires |lines| >= 3 && lines[0] == "---" && lines[|lines| - 1] == "---"
    ensures Join(lines) == "---\n" + Join(lines[1..|lines| - 1]) + "\n---"
  {
    var tail := lines[1..];
    var mid := Join(lines[1..|lines| - 1]);
    JoinStartsWith(lines);
    JoinEndsWith(tail);
    assert tail[..|tail| - 1] == lines[1..|lines| - 1];
    assert Join(tail) == (mid + "\n") + "---";
    Associate(mid, "\n", "---");
    Associate("---\n", mid, "\n---");
  }

  lemma GenerateFrontmatterInner(title: string, tokens: nat, concepts: seq<string>, toc: seq<TocEntry>, diagrams: seq<Diagram>)
    ensures GenerateFrontmatter(title, tokens, concepts, toc, diagrams)
      == "---\n" + Join(Inner(title, tokens, concepts, toc, diagrams)) + "\n---"
  {
    FrontmatterJoin(FrontmatterLines(title, tokens, concepts, toc, diagrams));
  }

  /** Every value the header quotes is free of newlines. */
  predicate SingleLines(title: string, concepts: seq<string>, toc: seq<TocEntry>, diagrams: seq<Diagram>)
  {
    && '\n' !in title
    && (forall k :: 0 <= k < |concepts| ==> '\n' !in concepts[k])
    && (forall k :: 0 <= k < |toc| ==> '\n' !in toc[k].text)
    && (forall k :: 0 <= k < |diagrams| ==> '\n' !in diagrams[k].heading)
  }

  /** When the quoted values are single lines, splitting the header on
      newlines gives back its lines. */
  lemma SplitFrontmatter(title: string, tokens: nat, concepts: seq<string>, toc: seq<TocEntry>, diagrams: seq<Diagram>)
    requires SingleLines(title, concepts, toc, diagrams)
    ensures Split(GenerateFrontmatter(title, tokens, concepts, toc, diagrams))
      == FrontmatterLines(title, tokens, concepts, toc, diagrams)
  {
    var fixed := FixedLines(title, tokens);
    assert NoNewlines(fixed) by {
      assert fixed[2] == "tokens: " + NatToString(tokens);
    }
    var c, t, d := ConceptSection(concepts), TocSection(toc), DiagramSection(diagrams);
    ConceptSectionSingle(concepts);
    TocSectionSingle(toc);
    DiagramSectionSingle(diagrams);
    NoNewlinesConcat(d, ["---"]);
    NoNewlinesConcat(t, d + ["---"]);
    NoNewlinesConcat(c, t + (d + ["---"]));
    NoNewlinesConcat(fixed, c + (t + (d + ["---"])));
    SplitJoin(FrontmatterLines(title, tokens, concepts, toc, diagrams));
  }

  lemma ConceptSectionSingle(concepts: seq<string>)
    requires forall k :: 0 <= k < |concepts| ==> '\n' !in concepts[k]
    ensures NoNewlines(ConceptSection(concepts))
  {
    var section := ConceptSection(concepts);
    forall k | 0 <= k < |section|
      ensures '\n' !in section[k]
    {
      if k > 0 {
        ConceptItemsAt(concepts[..Min(5, |concepts|)], k - 1);
      }
    }
  }

  lemma TocSectionSingle(toc: seq<TocEntry>)
    requires forall k :: 0 <= k < |toc| ==> '\n' !in toc[k].text
    ensures NoNewlines(TocSection(toc))
  {
    if |toc| > 0 {
      var section := TocSection(toc);
      assert section == ["toc:"] + TocItems(toc);
      forall k | 0 <= k < |section|
        ensures '\n' !in section[k]
      {
        if k > 0 {
          assert section[k] == TocItems(toc)[k - 1] == TocLine(toc[k - 1]);
          TocLineSingle(toc[k - 1]);
        }
      }
    }
  }

  lemma TocLineSingle(entry: TocEntry)
    requires '\n' !in entry.text
    ensures '\n' !in TocLine(entry)
  {
    assert '\n' !in Indent(entry.level);
  }

  lemma DiagramSectionSingle(diagrams: seq<Diagram>)
    requires forall k :: 0 <= k < |diagrams| ==> '\n' !in diagrams[k].heading
    ensures NoNewlines(DiagramSection(diagrams))
  {
    if |diagrams| > 0 {
      var section := DiagramSection(diagrams);
      var items := DiagramItems(diagrams);
      assert section == ["suggested_diagrams:"] + items;
      forall k | 0 <= k < |section|
        ensures '\n' !in section[k]
      {
        if k > 0 {
          assert section[k] == items[k - 1];
          var i := (k - 1) / 2;
          DiagramItemsAt(diagrams, i);
          DiagramLinesSingle(diagrams[i]);
          if k - 1 == 2 * i {
            assert items[k - 1] == "  - section: \"" + diagrams[i].heading + "\"";
          } else {
            assert k - 1 == 2 * i + 1;
            assert items[k - 1] == "    type: " + KindName(diagrams[i].kind);
          }
        }
      }
    }
  }

  lemma DiagramLinesSingle(d: Diagram)
    requires '\n' !in d.heading
    ensures '\n' !in "  - section: \"" + d.heading + "\""
    ensures '\n' !in "    type: " + KindName(d.kind)
  {
  }

  /** No three dashes in a string without dashes. */
  lemma NoDashes(s: string)
    requires forall i :: 0 <= i < |s| ==> s[i] != '-'
    ensures NoTripleDash(s)
  {
    forall j | 0 <= j && j + 3 <= |s|
      ensures !OccursAt(s, "---", j)
    {
      assert s[j..j + 3][0] == s[j];
    }
  }

  /** A value between a prefix and a suffix that do not end and begin with a
      dash gains no three dashes. */
  lemma Wrapped(pre: string, mid: string, post: string)
    requires NoTripleDash(pre) && NoTripleDash(mid) && NoTripleDash(post)
    requires |pre| > 0 && pre[|pre| - 1] != '-'
    requires |post| == 0 || post[0] != '-'
    ensures NoTripleDash(pre + mid + post)
  {
    NoTripleDashConcat(pre, mid);
    NoTripleDashConcat(pre + mid, post);
  }

  /** No line of `lines` holds three dashes in a row. */
  predicate DashFree(lines: seq<string>)
  {
    forall k :: 0 <= k < |lines| ==> NoTripleDash(lines[k])
  }

  lemma DashFreeConcat(a: seq<string>, b: seq<string>)
    requires DashFree(a) && DashFree(b)
    ensures DashFree(a + b)
  {
    assert forall k :: |a| <= k < |a + b| ==> (a + b)[k] == b[k - |a|];
  }

  /** Joining lines without three dashes with newlines makes none. */
  lemma {:induction false} NoTripleDashJoin(lines: seq<string>)
    requires DashFree(lines)
    ensures NoTripleDash(Join(lines))
  {
    if |lines| == 1 {
      assert Join(lines) == lines[0];
    } else if |lines| > 1 {
      NoTripleDashJoin(lines[1..]);
      NoDashes("\n");
      NoDashes("");
      NoTripleDashConcat(lines[0], "\n");
      Wrapped(lines[0] + "\n", Join(lines[1..]), "");
      assert Join(lines) == lines[0] + "\n" + Join(lines[1..]) + "";
    } else {
      NoDashes(Join(lines));
    }
  }

  /** The header's own values hold no three dashes in a row; only the first
      five concepts are written. */
  predicate DashSafe(title: string, concepts: seq<string>, toc: seq<TocEntry>, diagrams: seq<Diagram>)
  {
    && NoTripleDash(title)
    && (forall k :: 0 <= k < Min(5, |concepts|) ==> NoTripleDash(concepts[k]))
    && (forall k :: 0 <= k < |toc| ==> NoTripleDash(toc[k].text))
    && (forall k :: 0 <= k < |diagrams| ==> NoTripleDash(diagrams[k].heading))
  }

  lemma ConceptSectionDashFree(concepts: seq<string>)
    requires forall k :: 0 <= k < Min(5, |concepts|) ==> NoTripleDash(concepts[k])
    ensures DashFree(ConceptSection(concepts))
  {
    var section := ConceptSection(concepts);
    forall k | 0 <= k < |section|
      ensures NoTripleDash(section[k])
    {
      if k > 0 {
        ConceptItemsAt(concepts[..Min(5, |concepts|)], k - 1);
        assert section[k] == "  - " + concepts[k - 1] + "";
        NoDoubleDashNoTriple("  - ");
        NoDashes("");
        Wrapped("  - ", concepts[k - 1], "");
      } else {
        NoDashes(section[k]);
      }
    }
  }

  lemma TocLineDashFree(entry: TocEntry)
    requires NoTripleDash(entry.text)
    ensures NoTripleDash(TocLine(entry))
  {
    var indent := Indent(entry.level);
    NoDashes(indent);
    NoDoubleDashNoTriple("- ");
    NoDashes("");
    NoTripleDashConcat(indent, "- ");
    Wrapped(indent + "- ", entry.text, "");
    assert TocLine(entry) == indent + "- " + entry.text + "";
  }

  lemma TocSectionDashFree(toc: seq<TocEntry>)
    requires forall k :: 0 <= k < |toc| ==> NoTripleDash(toc[k].text)
    ensures DashFree(TocSection(toc))
  {
    var section := TocSection(toc);
    forall k | 0 <= k < |section|
      ensures NoTripleDash(section[k])
    {
      if k > 0 {
        TocLineDashFree(toc[k - 1]);
      } else {
        NoDashes(section[k]);
      }
    }
  }

  lemma DiagramLinesDashFree(d: Diagram)
    requires NoTripleDash(d.heading)
    ensures NoTripleDash("  - section: \"" + d.heading + "\"")
    ensures NoTripleDash("    type: " + KindName(d.kind))
  {
    NoDoubleDashNoTriple("  - section: \"");
    NoDashes("\"");
    Wrapped("  - section: \"", d.heading, "\"");
    NoDashes("    type: " + KindName(d.kind));
  }

  lemma DiagramSectionDashFree(diagrams: seq<Diagram>)
    requires forall k :: 0 <= k < |diagrams| ==> NoTripleDash(diagrams[k].heading)
    ensures DashFree(DiagramSection(diagrams))
  {
    if |diagrams| > 0 {
      NoDashes("suggested_diagrams:");
      DiagramItemsDashFree(diagrams);
      DashFreeConcat(["suggested_diagrams:"], DiagramItems(diagrams));
    }
  }

  lemma {:induction false} DiagramItemsDashFree(diagrams: seq<Diagram>)
    requires forall k :: 0 <= k < |diagrams| ==> NoTripleDash(diagrams[k].heading)
    ensures DashFree(DiagramItems(diagrams))
  {
    if |diagrams| > 0 {
      var d := diagrams[0];
      DiagramLinesDashFree(d);
      DiagramItemsDashFree(diagrams[1..]);
      DashFreeConcat(["  - section: \"" + d.heading + "\"", "    type: " + KindName(d.kind)], DiagramItems(diagrams[1..]));
    }
  }

  /** The title, token and flag lines. */
  lemma FixedLinesDashFree(title: string, tokens: nat)
    requires NoTripleDash(title)
    ensures DashFree(FixedLines(title, tokens)[1..])
  {
    var fixed := FixedLines(title, tokens);
    NoDoubleDashNoTriple("title: \"");
    NoDashes("\"");
    Wrapped("title: \"", title, "\"");
    assert fixed[2] == "tokens: " + NatToString(tokens);
    NoDashes(fixed[2]);
    NoDashes(fixed[3]);
  }

  /** When the values are dash-safe, the text between the header's two `---`
      holds no other `---`. */
  lemma InnerNoTripleDash(title: string, tokens: nat, concepts: seq<string>, toc: seq<TocEntry>, diagrams: seq<Diagram>)
    requires DashSafe(title, concepts, toc, diagrams)
    ensures NoTripleDash(Join(Inner(title, tokens, concepts, toc, diagrams)))
  {
    var lines := FrontmatterLines(title, tokens, concepts, toc, diagrams);
    var fixed := FixedLines(title, tokens);
    var c, t, d := ConceptSection(concepts), TocSection(toc), DiagramSection(diagrams);
    var inner := Inner(title, tokens, concepts, toc, diagrams);
    Interior(fixed, c, t, d, ["---"]);
    FixedLinesDashFree(title, tokens);
    ConceptSectionDashFree(concepts);
    TocSectionDashFree(toc);
    DiagramSectionDashFree(diagrams);
    DashFreeConcat(t, d);
    DashFreeConcat(c, t + d);
    DashFreeConcat(fixed[1..], c + (t + d));
    NoTripleDashJoin(inner);
  }
}

=== FILE: headings.dfy ===
/**
 * Heading recognition: the pattern `^(#{1,6})\s+(.+)$` applied to one line,
 * and `extract_headings`, which applies it to every line of the document.
 */
module Headings {
  import opened Text

  /** What the heading pattern captures on a line: the length of the `#` run
      (group 1) and the raw heading text (group 2). */
  datatype HeadingMatch = HeadingMatch(level: nat, body: string)

  /** One entry of `extract_headings`: level, stripped text, zero-based line index. */
  datatype Heading = Heading(level: nat, text: string, line: nat)

  /** A line that starts with exactly `k` hashes has a `#` run of length `k`. */
  lemma HashRunExact(s: string, k: nat)
    requires k < |s| && s[..k] == Repeat('#', k) && s[k] != '#'
    ensures RunEnd(s, 0, IsHash) == k
  {
  }

  /** The lines the heading pattern accepts, stated without the matcher:
      one to six `#`, a whitespace character, and at least one more character. */
  predicate IsHeadingLine(line: string)
  {
    exists k :: 1 <= k <= 6 && k + 2 <= |line| && line[..k] == Repeat('#', k) && IsSpace(line[k])
  }

  /** The raw text group 2 can capture: it starts with a non-space character,
      or it is the single last character of a line that ends in whitespace. */
  predicate IsHeadingBody(body: string)
  {
    |body| == 1 || (|body| > 1 && !IsSpace(body[0]))
  }

  /** `re.match(r'^(#{1,6})\s+(.+)$', line)`. Greedy `\s+` takes the whole
      whitespace run; when that run reaches the end of the line it gives its
      last character back to `.+`. This is the regex only on a line without
      `\n`, which is what every caller passes (the lines of `Split`): on a
      string with a newline Python's `.` and `$` stop at it and refuse the
      match, which this function does not. */
  function MatchHeading(line: string): (r: Option<HeadingMatch>)
    ensures r.Some? ==> 1 <= r.value.level <= 6
  {
    var h := RunEnd(line, 0, IsHash);
    if h < 1 || h > 6 then None
    else
      var e := RunEnd(line, h, IsSpace);
      if e == h then None
      else if e < |line| then Some(HeadingMatch(h, line[e..]))
      else if e - h >= 2 then Some(HeadingMatch(h, line[|line| - 1..]))
      else None
  }

  /** `line` is the `#` run of `m`, a non-empty run of whitespace, and the
      text of `m`, which is text group 2 of the pattern can capture. */
  predicate HeadingShape(line: string, m: HeadingMatch)
  {
    && m.level + 1 + |m.body| <= |line|
    && line[..m.level] == Repeat('#', m.level)
    && line[|line| - |m.body|..] == m.body
    && IsBlank(line[m.level..|line| - |m.body|])
    && IsHeadingBody(m.body)
  }

  /** The captured text is what follows the `#` run and at least one
      whitespace character. */
  lemma MatchHeadingBody(line: string)
    requires MatchHeading(line).Some?
    ensures MatchHeading(line).value.level == RunEnd(line, 0, IsHash)
    ensures RunEnd(line, 0, IsHash) + 1 + |MatchHeading(line).value.body| <= |line|
    ensures MatchHeading(line).value.body == line[|line| - |MatchHeading(line).value.body|..]
    ensures IsHeadingBody(MatchHeading(line).value.body)
  {
    var h := RunEnd(line, 0, IsHash);
    var e := RunEnd(line, h, IsSpace);
    var b := if e < |line| then e else e - 1;
    assert MatchHeading(line) == Some(HeadingMatch(h, line[b..]));
  }

  /** What the matcher captures always has the heading shape, with the whole
      `#` run as its level. */
  lemma MatchHeadingShape(line: string)
    requires MatchHeading(line).Some?
    ensures MatchHeading(line).value.level == RunEnd(line, 0, IsHash)
    ensures HeadingShape(line, MatchHeading(line).value)
  {
    MatchHeadingBody(line);
    var h := RunEnd(line, 0, IsHash);
    var b := |line| - |MatchHeading(line).value.body|;
    assert line[..h] == Repeat('#', h) by {
    }
    assert IsBlank(line[h..b]) by {
      assert b <= RunEnd(line, h, IsSpace);
    }
  }

  /** Seven or more `#`, or no whitespace after the `#` run, never match. */
  lemma MatchHeadingRejects(line: string)
    ensures RunEnd(line, 0, IsHash) >= 7 ==> MatchHeading(line).None?
    ensures RunEnd(line, 0, IsHash) < |line| && !IsSpace(line[RunEnd(line, 0, IsHash)]) ==> MatchHeading(line).None?
  {
    var h := RunEnd(line, 0, IsHash);
    if 1 <= h <= 6 && h < |line| && !IsSpace(line[h]) {
      assert RunEnd(line, h, IsSpace) == h;
    }
  }

  /** The matcher accepts exactly the heading lines. */
  lemma MatchHeadingIff(line: string)
    ensures MatchHeading(line).Some? <==> IsHeadingLine(line)
  {
    var h := RunEnd(line, 0, IsHash);
    if MatchHeading(line).Some? {
      MatchHeadingShape(line);
      var b := |line| - |MatchHeading(line).value.body|;
      assert line[h] == line[h..b][0];
      assert 1 <= h <= 6 && h + 2 <= |line|;
    }
    if IsHeadingLine(line) {
      var k :| 1 <= k <= 6 && k + 2 <= |line| && line[..k] == Repeat('#', k) && IsSpace(line[k]);
      HashRunExact(line, k);
      assert RunEnd(line, k, IsSpace) > k;
    }
  }

  /** `h` is what `extract_headings` records for `line`: the captured level,
      and the captured text with surrounding whitespace stripped. */
  predicate Describes(h: Heading, line: string)
  {
    && MatchHeading(line).Some?
    && h.level == MatchHeading(line).value.level
    && h.text == Strip(MatchHeading(line).value.body)
  }

  /** The entry `extract_headings` records for `line` at index `index`, if any. */
  function HeadingOf(line: string, index: nat): Option<Heading>
  {
    match MatchHeading(line)
    case None => None
    case Some(m) => Some(Heading(m.level, Strip(m.body), index))
  }

  /** `h` is the entry for line `h.line` of `lines`, numbered from `first`. */
  predicate EntryAt(lines: seq<string>, first: nat, h: Heading)
  {
    first <= h.line < first + |lines| && HeadingOf(lines[h.line - first], h.line) == Some(h)
  }

  /** Line `i` of `lines` matches the heading pattern. */
  predicate MatchesAt(lines: seq<string>, i: nat)
    requires i < |lines|
  {
    MatchHeading(lines[i]).Some?
  }

  /** `extract_headings` on `lines`, numbering them from `first`. */
  function ExtractFrom(lines: seq<string>, first: nat): seq<Heading>
    decreases |lines|
  {
    if |lines| == 0 then []
    else
      var rest := ExtractFrom(lines[1..], first + 1);
      match HeadingOf(lines[0], first)
      case None => rest
      case Some(h) => [h] + rest
  }

  /** An entry for a line of the tail is an entry for the same line of the
      whole. */
  lemma EntryShift(lines: seq<string>, first: nat, h: Heading)
    requires |lines| > 0 && EntryAt(lines[1..], first + 1, h)
    ensures EntryAt(lines, first, h)
  {
    assert lines[1..][h.line - (first + 1)] == lines[h.line - first];
  }

  /** Every entry of `ExtractFrom` describes a line in range. */
  lemma {:induction false} ExtractFromSound(lines: seq<string>, first: nat)
    ensures forall k :: 0 <= k < |ExtractFrom(lines, first)| ==> EntryAt(lines, first, ExtractFrom(lines, first)[k])
    decreases |lines|
  {
    if |lines| > 0 {
      var tail: seq<string> := lines[1..];
      var rest := ExtractFrom(tail, first + 1);
      ExtractFromSound(tail, first + 1);
      var hs := ExtractFrom(lines, first);
      forall k | 0 <= k < |hs|
        ensures EntryAt(lines, first, hs[k])
      {
        if HeadingOf(lines[0], first).Some? {
          assert hs == [hs[0]] + rest;
          if k > 0 {
            assert hs[k] == rest[k - 1];
            EntryShift(lines, first, rest[k - 1]);
          }
        } else {
          assert hs[k] == rest[k];
          EntryShift(lines, first, rest[k]);
        }
      }
    }
  }

  /** `ExtractFrom` lists its entries in strictly increasing line order. */
  lemma {:induction false} ExtractFromOrdered(lines: seq<string>, first: nat)
    ensures forall k :: 0 <= k < |ExtractFrom(lines, first)| ==> first <= ExtractFrom(lines, first)[k].line
    ensures forall k, m :: 0 <= k < m < |ExtractFrom(lines, first)| ==> ExtractFrom(lines, first)[k].line < ExtractFrom(lines, first)[m].line
    decreases |lines|
  {
    if |lines| > 0 {
      var tail: seq<string> := lines[1..];
      var rest := ExtractFrom(tail, first + 1);
      ExtractFromOrdered(tail, first + 1);
      var hs := ExtractFrom(lines, first);
      if HeadingOf(lines[0], first).Some? {
        assert hs == [hs[0]] + rest && hs[0].line == first;
        forall k | 1 <= k < |hs|
          ensures hs[k] == rest[k - 1] && first < hs[k].line
        {
        }
      } else {
        assert hs == rest;
      }
    }
  }

  /** Some entry of `hs` is for line `line`. */
  predicate HasEntryFor(hs: seq<Heading>, line: nat)
  {
    exists k :: 0 <= k < |hs| && hs[k].line == line
  }

  /** Every heading line has an entry in `ExtractFrom`. */
  lemma {:induction false} ExtractFromComplete(lines: seq<string>, first: nat)
    ensures forall i :: 0 <= i < |lines| && MatchesAt(lines, i) ==> HasEntryFor(ExtractFrom(lines, first), first + i)
    decreases |lines|
  {
    if |lines| > 0 {
      var tail: seq<string> := lines[1..];
      var rest := ExtractFrom(tail, first + 1);
      ExtractFromComplete(tail, first + 1);
      var hs := ExtractFrom(lines, first);
      forall i | 0 <= i < |lines| && MatchesAt(lines, i)
        ensures HasEntryFor(hs, first + i)
      {
        if i == 0 {
          assert hs[0].line == first;
        } else {
          assert tail[i - 1] == lines[i];
          assert MatchesAt(tail, i - 1);
          assert HasEntryFor(rest, first + 1 + (i - 1));
          var k :| 0 <= k < |rest| && rest[k].line == first + i;
          if HeadingOf(lines[0], first).Some? {
            assert hs == [hs[0]] + rest;
            assert hs[k + 1].line == first + i;
          } else {
            assert hs == rest;
          }
        }
      }
    }
  }

  /** `extract_headings`: the heading lines of the document, in line order.
      Every index of a heading line appears, and only those. The lines are
      those of `Split`, so none holds a newline (see `MatchHeading`). */
  function ExtractHeadings(lines: seq<string>): (hs: seq<Heading>)
    ensures forall k :: 0 <= k < |hs| ==> hs[k].line < |lines| && Describes(hs[k], lines[hs[k].line])
    ensures forall k :: 0 <= k < |hs| ==> 1 <= hs[k].level <= 6
    ensures forall k, m :: 0 <= k < m < |hs| ==> hs[k].line < hs[m].line
    ensures forall i :: 0 <= i < |lines| && IsHeadingLine(lines[i]) ==>
      exists k :: 0 <= k < |hs| && hs[k].line == i
  {
    var hs := ExtractFrom(lines, 0);
    ExtractFromSound(lines, 0);
    ExtractFromOrdered(lines, 0);
    ExtractFromComplete(lines, 0);
    assert forall k :: 0 <= k < |hs| ==> EntryAt(lines, 0, hs[k]);
    assert forall i :: 0 <= i < |lines| && IsHeadingLine(lines[i]) ==> MatchesAt(lines, i) by {
      forall i | 0 <= i < |lines| && IsHeadingLine(lines[i]) {
        MatchHeadingIff(lines[i]);
      }
    }
    hs
  }

  /** The levels of a heading list, in order. */
  function Levels(hs: seq<Heading>): (r: seq<nat>)
    ensures |r| == |hs|
    ensures forall k :: 0 <= k < |hs| ==> r[k] == hs[k].level
  {
    if |hs| == 0 then [] else [hs[0].level] + Levels(hs[1..])
  }

  /** `hs` with its levels replaced, one for one, by `levels`. */
  function WithLevels(hs: seq<Heading>, levels: seq<nat>): (r: seq<Heading>)
    requires |levels| == |hs|
    ensures |r| == |hs|
    ensures forall k :: 0 <= k < |hs| ==> r[k] == hs[k].(level := levels[k])
  {
    if |hs| == 0 then [] else [hs[0].(level := levels[0])] + WithLevels(hs[1..], levels[1..])
  }
}

=== FILE: hierarchy.dfy ===
/**
 * `normalize_heading_hierarchy`: a left-to-right pass over the headings that
 * lowers any heading more than one level deeper than the heading before it,
 * followed by rewriting every heading line as `'#' * level + ' ' + text`.
 */
module Hierarchy {
  import opened Text
  import opened Lines
  import opened Headings

  /** The level the pass gives a heading of level `level` when the heading
      before it ended up at `expected`: at most one level deeper. */
  function NextLevel(level: nat, expected: nat): (r: nat)
    ensures r <= level && r <= expected + 1
    ensures level <= expected + 1 ==> r == level
    ensures r < level ==> r == expected + 1
  {
    if level > expected + 1 then expected + 1 else level
  }

  /** The level before position `k`: `start` in front of the first one. */
  function Prev(levels: seq<nat>, k: nat, start: nat): nat
    requires k <= |levels|
  {
    if k == 0 then start else levels[k - 1]
  }

  /** No level is more than one deeper than the level before it. */
  predicate NoSkip(levels: seq<nat>, start: nat)
  {
    forall k :: 0 <= k < |levels| ==> levels[k] <= Prev(levels, k, start) + 1
  }

  /** The levels the pass assigns, in heading order, starting from `expected`. */
  function NormalizeLevels(levels: seq<nat>, expected: nat): (r: seq<nat>)
    ensures |r| == |levels|
  {
    if |levels| == 0 then []
    else
      var l := NextLevel(levels[0], expected);
      [l] + NormalizeLevels(levels[1..], l)
  }

  /** The pass only lowers levels, never leaves a skip, keeps every level
      that does not skip, and lowers a skipping one to one below its
      predecessor. */
  lemma {:induction false} NormalizeLevelsSpec(levels: seq<nat>, expected: nat)
    ensures forall k :: 0 <= k < |levels| ==> NormalizeLevels(levels, expected)[k] <= levels[k]
    ensures NoSkip(NormalizeLevels(levels, expected), expected)
    ensures forall k :: 0 <= k < |levels| && levels[k] <= Prev(NormalizeLevels(levels, expected), k, expected) + 1 ==>
      NormalizeLevels(levels, expected)[k] == levels[k]
    ensures forall k :: 0 <= k < |levels| && NormalizeLevels(levels, expected)[k] < levels[k] ==>
      NormalizeLevels(levels, expected)[k] == Prev(NormalizeLevels(levels, expected), k, expected) + 1
    ensures forall k :: 0 <= k < |levels| && 1 <= levels[k] ==> 1 <= NormalizeLevels(levels, expected)[k]
    decreases |levels|
  {
    if |levels| > 0 {
      var r := NormalizeLevels(levels, expected);
      var l := NextLevel(levels[0], expected);
      var rest := NormalizeLevels(levels[1..], l);
      NormalizeLevelsSpec(levels[1..], l);
      assert r == [l] + rest;
      forall k | 1 <= k < |levels|
        ensures r[k] == rest[k - 1] && levels[k] == levels[1..][k - 1]
        ensures Prev(r, k, expected) == Prev(rest, k - 1, l)
      {
      }
    }
  }

  /** The levels are left alone exactly when none of them skips. */
  lemma {:induction false} NormalizeLevelsFixed(levels: seq<nat>, expected: nat)
    ensures NormalizeLevels(levels, expected) == levels <==> NoSkip(levels, expected)
    decreases |levels|
  {
    NormalizeLevelsSpec(levels, expected);
    if |levels| > 0 && NoSkip(levels, expected) {
      var tail := levels[1..];
      assert Prev(levels, 0, expected) == expected;
      forall k | 0 <= k < |tail|
        ensures tail[k] <= Prev(tail, k, levels[0]) + 1
      {
        assert tail[k] == levels[k + 1] && Prev(tail, k, levels[0]) == Prev(levels, k + 1, expected);
      }
      NormalizeLevelsFixed(tail, levels[0]);
      assert levels == [levels[0]] + tail;
    }
  }

  /** Normalising the levels twice is the same as once. */
  lemma NormalizeLevelsIdempotent(levels: seq<nat>, expected: nat)
    ensures NormalizeLevels(NormalizeLevels(levels, expected), expected) == NormalizeLevels(levels, expected)
  {
    NormalizeLevelsSpec(levels, expected);
    NormalizeLevelsFixed(NormalizeLevels(levels, expected), expected);
  }

  /** A heading line written back by the pass: `'#' * level + ' ' + body`. */
  function HeadingLine(level: nat, body: string): (r: string)
    ensures '\n' !in body ==> '\n' !in r
  {
    Repeat('#', level) + " " + body
  }

  /** The pattern reads back the level and text a heading line was built from. */
  lemma MatchHeadingLine(level: nat, body: string)
    requires 1 <= level <= 6 && IsHeadingBody(body)
    ensures MatchHeading(HeadingLine(level, body)) == Some(HeadingMatch(level, body))
  {
    var line := HeadingLine(level, body);
    assert line[..level] == Repeat('#', level);
    HashRunExact(line, level);
    assert line[level] == ' ' && line[level + 1..] == body;
    if |body| > 1 || !IsSpace(body[0]) {
      assert RunEnd(line, level + 1, IsSpace) == level + 1;
    } else {
      assert RunEnd(line, level + 2, IsSpace) == level + 2 == |line|;
      assert line[|line| - 1..] == body;
    }
  }

  /** The text a line's heading match captured; part of the line, so newline-free. */
  function MatchedBody(line: Line): (b: Line)
    requires MatchHeading(line).Some?
    ensures b == MatchHeading(line).value.body
  {
    MatchHeadingShape(line);
    var body := MatchHeading(line).value.body;
    assert body == line[|line| - |body|..];
    SliceIsLine(line, |line| - |body|);
    body
  }

  /** The pass over the document's lines, fused with the rewrite: each
      heading line is rewritten at the level the pass gives it, starting from
      `expected`; other lines are kept. */
  function NormalizeFrom(lines: seq<Line>, expected: nat): (r: seq<Line>)
    ensures |r| == |lines|
    decreases |lines|
  {
    if |lines| == 0 then []
    else
      match MatchHeading(lines[0])
      case None => [lines[0]] + NormalizeFrom(lines[1..], expected)
      case Some(m) =>
        var level := NextLevel(m.level, expected);
        var line: Line := HeadingLine(level, MatchedBody(lines[0]));
        [line] + NormalizeFrom(lines[1..], level)
  }

  /** `after` is `before` rewritten by the pass: a heading line with the same
      captured text at the same or a lower level. */
  predicate RewrittenAs(after: string, before: string)
  {
    && MatchHeading(before).Some?
    && MatchHeading(after).Some?
    && MatchHeading(after).value.body == MatchHeading(before).value.body
    && MatchHeading(after).value.level <= MatchHeading(before).value.level
    && after == HeadingLine(MatchHeading(after).value.level, MatchHeading(before).value.body)
  }

  /** What the pass may do to one line: rewrite a heading line, keep any other. */
  predicate LineNormalized(after: string, before: string)
  {
    if MatchHeading(before).Some? then RewrittenAs(after, before) else after == before
  }

  /** Line by line, the pass keeps every non-heading line and rewrites each
      heading line with its own text at a level no higher than before. */
  lemma {:induction false} NormalizeFromLines(lines: seq<Line>, expected: nat)
    ensures forall i :: 0 <= i < |lines| ==> LineNormalized(NormalizeFrom(lines, expected)[i], lines[i])
    decreases |lines|
  {
    if |lines| > 0 {
      var r := NormalizeFrom(lines, expected);
      var m := MatchHeading(lines[0]);
      var next := if m.Some? then NextLevel(m.value.level, expected) else expected;
      var tail := lines[1..];
      NormalizeFromLines(tail, next);
      var rest := NormalizeFrom(tail, next);
      NormalizeFromFirst(lines, expected);
      assert r[1..] == rest;
      PairwiseCons(r, lines, LineNormalized);
    }
  }

  /** A relation that holds between the first elements and between the
      rests holds everywhere. */
  lemma PairwiseCons(a: seq<string>, b: seq<string>, p: (string, string) -> bool)
    requires |a| == |b| > 0
    requires p(a[0], b[0])
    requires forall i :: 0 <= i < |b| - 1 ==> p(a[1..][i], b[1..][i])
    ensures forall i :: 0 <= i < |b| ==> p(a[i], b[i])
  {
    forall i | 1 <= i < |b|
      ensures p(a[i], b[i])
    {
      assert a[1..][i - 1] == a[i] && b[1..][i - 1] == b[i];
    }
  }

  /** The pass treats the first line on its own. */
  lemma NormalizeFromFirst(lines: seq<Line>, expected: nat)
    requires |lines| > 0
    ensures LineNormalized(NormalizeFrom(lines, expected)[0], lines[0])
  {
    var m := MatchHeading(lines[0]);
    if m.Some? {
      var next := NextLevel(m.value.level, expected);
      MatchHeadingBody(lines[0]);
      MatchHeadingLine(next, m.value.body);
      assert NormalizeFrom(lines, expected)[0] == HeadingLine(next, m.value.body);
    }
  }

  /** Reading the headings back after the pass gives the original headings,
      on the same lines and with the same text, at the levels the pass
      assigned. */
  lemma {:induction false} NormalizeFromHeadings(lines: seq<Line>, expected: nat, first: nat)
    ensures ExtractFrom(NormalizeFrom(lines, expected), first)
      == WithLevels(ExtractFrom(lines, first), NormalizeLevels(Levels(ExtractFrom(lines, first)), expected))
    decreases |lines|
  {
    if |lines| > 0 {
      var r := NormalizeFrom(lines, expected);
      var hs := ExtractFrom(lines, first);
      var tail := lines[1..];
      var m := MatchHeading(lines[0]);
      var next := if m.Some? then NextLevel(m.value.level, expected) else expected;
      NormalizeFromHeadings(tail, next, first + 1);
      var rest := NormalizeFrom(tail, next);
      var restHs := ExtractFrom(tail, first + 1);
      assert r == [r[0]] + rest && r[1..] == rest;
      if m.Some? {
        MatchHeadingBody(lines[0]);
        MatchHeadingLine(next, m.value.body);
        assert r[0] == HeadingLine(next, m.value.body);
        assert hs == [hs[0]] + restHs && hs[1..] == restHs;
        assert Levels(hs) == [hs[0].level] + Levels(restHs);
        assert NormalizeLevels(Levels(hs), expected) == [next] + NormalizeLevels(Levels(restHs), next);
      } else {
        assert hs == restHs;
      }
    }
  }

  /** A second pass changes nothing. */
  lemma {:induction false} NormalizeFromIdempotent(lines: seq<Line>, expected: nat)
    ensures NormalizeFrom(NormalizeFrom(lines, expected), expected) == NormalizeFrom(lines, expected)
    decreases |lines|
  {
    if |lines| > 0 {
      var r := NormalizeFrom(lines, expected);
      var tail := lines[1..];
      var m := MatchHeading(lines[0]);
      var next := if m.Some? then NextLevel(m.value.level, expected) else expected;
      NormalizeFromIdempotent(tail, next);
      assert r[1..] == NormalizeFrom(tail, next);
      if m.Some? {
        MatchHeadingBody(lines[0]);
        MatchHeadingLine(next, m.value.body);
        assert r[0] == HeadingLine(next, m.value.body);
        assert NextLevel(next, expected) == next;
      }
    }
  }

  /** Without heading lines the pass changes nothing. */
  lemma {:induction false} NormalizeFromPlain(lines: seq<Line>, expected: nat)
    requires forall i :: 0 <= i < |lines| ==> MatchHeading(lines[i]).None?
    ensures NormalizeFrom(lines, expected) == lines
    decreases |lines|
  {
    if |lines| > 0 {
      var tail := lines[1..];
      assert forall i :: 0 <= i < |tail| ==> tail[i] == lines[i + 1];
      NormalizeFromPlain(tail, expected);
      assert lines == [lines[0]] + tail;
    }
  }

  /** `normalize_heading_hierarchy`: a document without headings is returned
      as it is; otherwise the pass runs over its lines from level 1. */
  function NormalizeHeadingHierarchy(content: string): (r: string)
  {
    var lines := Split(content);
    if |ExtractHeadings(lines)| == 0 then content
    else Join(NormalizeFrom(lines, 1))
  }

  /** The early return for a document without headings gives what the pass
      would have given. */
  lemma NormalizeHeadingHierarchyIsPass(content: string)
    ensures NormalizeHeadingHierarchy(content) == Join(NormalizeFrom(Split(content), 1))
  {
    var lines := Split(content);
    if |ExtractHeadings(lines)| == 0 {
      forall i | 0 <= i < |lines|
        ensures MatchHeading(lines[i]).None?
      {
        MatchHeadingIff(lines[i]);
      }
      NormalizeFromPlain(lines, 1);
      JoinSplit(content);
    }
  }

  /** The document keeps its number of lines; every non-heading line is
      unchanged and every heading line is rewritten as
      `'#' * level + ' ' + text` with the same text and a level no higher. */
  lemma NormalizeHeadingHierarchyLines(content: string)
    ensures |Split(NormalizeHeadingHierarchy(content))| == |Split(content)|
    ensures forall i :: 0 <= i < |Split(content)| ==>
      LineNormalized(Split(NormalizeHeadingHierarchy(content))[i], Split(content)[i])
  {
    NormalizeHeadingHierarchyIsPass(content);
    SplitJoin(NormalizeFrom(Split(content), 1));
    NormalizeFromLines(Split(content), 1);
  }

  /** The headings of the result are those of the input, on the same lines
      and with the same text, at the levels the pass assigns. */
  lemma NormalizeHeadingHierarchyHeadings(content: string)
    ensures ExtractHeadings(Split(NormalizeHeadingHierarchy(content)))
      == WithLevels(ExtractHeadings(Split(content)), NormalizeLevels(Levels(ExtractHeadings(Split(content))), 1))
  {
    NormalizeHeadingHierarchyIsPass(content);
    SplitJoin(NormalizeFrom(Split(content), 1));
    NormalizeFromHeadings(Split(content), 1, 0);
  }

  /** In the result no heading level is skipped: the first heading is at
      level 1 or 2, each later one at most one deeper than the one before,
      and no heading is deeper than it was. */
  lemma NormalizeHeadingHierarchyNoSkip(content: string)
    ensures NoSkip(Levels(ExtractHeadings(Split(NormalizeHeadingHierarchy(content)))), 1)
    ensures |ExtractHeadings(Split(NormalizeHeadingHierarchy(content)))| == |ExtractHeadings(Split(content))|
    ensures forall k :: 0 <= k < |ExtractHeadings(Split(content))| ==>
      ExtractHeadings(Split(NormalizeHeadingHierarchy(content)))[k].level <= ExtractHeadings(Split(content))[k].level
  {
    var hs := ExtractHeadings(Split(content));
    var levels := NormalizeLevels(Levels(hs), 1);
    NormalizeHeadingHierarchyHeadings(content);
    NormalizeLevelsSpec(Levels(hs), 1);
    assert Levels(WithLevels(hs, levels)) == levels;
  }

  /** Normalising a normalised document changes nothing. */
  lemma NormalizeHeadingHierarchyIdempotent(content: string)
    ensures NormalizeHeadingHierarchy(NormalizeHeadingHierarchy(content)) == NormalizeHeadingHierarchy(content)
  {
    var once := NormalizeFrom(Split(content), 1);
    NormalizeHeadingHierarchyIsPass(content);
    NormalizeHeadingHierarchyIsPass(Join(once));
    SplitJoin(once);
    NormalizeFromIdempotent(Split(content), 1);
  }
}

=== FILE: lines.dfy ===
/**
 * A document as a sequence of lines: `content.split('\n')` and
 * `'\n'.join(lines)`, which every transform of the optimizer goes through.
 */
module Lines {

  /** One line of a document; splitting on newlines never leaves one inside. */
  type Line = s: string | '\n' !in s

  /** No line of `lines` holds a newline: each of them is a `Line`. */
  predicate NoNewlines(lines: seq<string>)
  {
    forall k :: 0 <= k < |lines| ==> '\n' !in lines[k]
  }

  lemma NoNewlinesConcat(a: seq<string>, b: seq<string>)
    requires NoNewlines(a) && NoNewlines(b)
    ensures NoNewlines(a + b)
  {
    assert forall k :: |a| <= k < |a + b| ==> (a + b)[k] == b[k - |a|];
  }

  /** A suffix of a line is a line. */
  lemma SliceIsLine(l: Line, i: nat)
    requires i <= |l|
    ensures '\n' !in l[i..]
  {
  }

  /** Number of newlines in `s`. */
  function Newlines(s: string): nat
  {
    if |s| == 0 then 0 else (if s[0] == '\n' then 1 else 0) + Newlines(s[1..])
  }

  /** `s.split('\n')`. */
  function Split(s: string): (r: seq<Line>)
    ensures |r| == Newlines(s) + 1
  {
    if |s| == 0 then [""]
    else
      var rest := Split(s[1..]);
      if s[0] == '\n' then [""] + rest
      else [[s[0]] + rest[0]] + rest[1..]
  }

  /** `'\n'.join(lines)`. */
  function Join(lines: seq<string>): string
  {
    if |lines| == 0 then ""
    else if |lines| == 1 then lines[0]
    else lines[0] + "\n" + Join(lines[1..])
  }

  /** Joining the pieces of a split gives the original text back. */
  lemma {:induction false} JoinSplit(s: string)
    ensures Join(Split(s)) == s
  {
    if |s| > 0 {
      var rest := Split(s[1..]);
      JoinSplit(s[1..]);
      if s[0] == '\n' {
        assert Split(s) == [""] + rest;
        assert ([""] + rest)[1..] == rest;
      } else {
        var first := [s[0]] + rest[0];
        assert Split(s) == [first] + rest[1..];
        if |rest| > 1 {
          assert ([first] + rest[1..])[1..] == rest[1..];
          assert Join(rest) == rest[0] + "\n" + Join(rest[1..]);
        }
      }
    }
  }

  /** A newline-free prefix becomes part of the first line. */
  lemma {:induction false} SplitAfterLine(l: Line, s: string)
    ensures Split(l + s) == [l + Split(s)[0]] + Split(s)[1..]
    decreases |l|
  {
    if |l| > 0 {
      var t: Line := l[1..];
      SplitAfterLine(t, s);
      var r := Split(s);
      var rest := Split(t + s);
      assert (l + s)[0] == l[0] && l[0] != '\n';
      assert (l + s)[1..] == t + s;
      assert Split(l + s) == [[l[0]] + rest[0]] + rest[1..];
      assert rest[0] == t + r[0] && rest[1..] == r[1..];
      assert [l[0]] + (t + r[0]) == l + r[0];
    } else {
      var r := Split(s);
      assert l + s == s && l + r[0] == r[0];
      assert r == [r[0]] + r[1..];
    }
  }

  /** Splitting joined lines gives the lines back. */
  lemma {:induction false} SplitJoin(lines: seq<Line>)
    requires |lines| >= 1
    ensures Split(Join(lines)) == lines
  {
    if |lines| == 1 {
      SplitAfterLine(lines[0], "");
      assert lines[0] + "" == lines[0];
    } else {
      var tail := Join(lines[1..]);
      SplitJoin(lines[1..]);
      SplitAfterLine(lines[0], "\n" + tail);
      assert ("\n" + tail)[1..] == tail;
      var r := Split("\n" + tail);
      assert r == [""] + lines[1..];
      assert r[0] == "" && r[1..] == lines[1..];
      assert Join(lines) == lines[0] + ("\n" + tail);
      assert lines[0] + r[0] == lines[0];
      assert lines == [lines[0]] + lines[1..];
    }
  }

  /** The first line of a join. */
  lemma {:induction false} JoinStartsWith(lines: seq<string>)
    requires |lines| >= 2
    ensures Join(lines) == lines[0] + "\n" + Join(lines[1..])
  {
  }

  /** The last line of a join. */
  lemma {:induction false} JoinEndsWith(lines: seq<string>)
    requires |lines| >= 2
    ensures Join(lines) == Join(lines[..|lines| - 1]) + "\n" + lines[|lines| - 1]
    decreases |lines|
  {
    if |lines| > 2 {
      JoinEndsWith(lines[1..]);
      assert lines[1..][..|lines| - 2] == lines[..|lines| - 1][1..];
      assert Join(lines[..|lines| - 1]) == lines[0] + "\n" + Join(lines[..|lines| - 1][1..]);
    } else {
      assert lines[..1] == [lines[0]];
    }
  }

  /** Joining two non-empty runs of lines puts one newline between them. */
  lemma {:induction false} JoinAppend(a: seq<string>, b: seq<string>)
    requires |a| >= 1 && |b| >= 1
    ensures Join(a + b) == Join(a) + "\n" + Join(b)
  {
    if |a| == 1 {
      assert (a + b)[1..] == b;
    } else {
      JoinAppend(a[1..], b);
      assert (a + b)[1..] == a[1..] + b;
    }
  }

  /** Concatenation is associative. */
  lemma Associate<T>(a: seq<T>, b: seq<T>, c: seq<T>)
    ensures (a + b) + c == a + (b + c)
  {
  }

  /** Dropping a prefix of a concatenation leaves the rest. */
  lemma DropPrefix<T>(a: seq<T>, b: seq<T>)
    ensures (a + b)[|a|..] == b
  {
  }

  /** Where an element of the third of four runs sits in their concatenation. */
  lemma PlacedThird<T>(a: seq<T>, b: seq<T>, c: seq<T>, d: seq<T>, k: nat)
    requires k < |c|
    ensures (a + (b + (c + d)))[|a| + |b| + k] == c[k]
  {
  }

  /** Where an element of the last of four runs sits in their concatenation. */
  lemma PlacedLast<T>(a: seq<T>, b: seq<T>, c: seq<T>, d: seq<T>, k: nat)
    requires k < |d|
    ensures (a + (b + (c + d)))[|a| + |b| + |c| + k] == d[k]
  {
  }

  /** What lies between the first and the last element of a concatenation. */
  lemma Interior<T>(f: seq<T>, c: seq<T>, t: seq<T>, d: seq<T>, e: seq<T>)
    requires |f| >= 1 && |e| == 1
    ensures var l := f + (c + (t + (d + e)));
      l[1..|l| - 1] == f[1..] + (c + (t + d))
  {
  }
}

=== FILE: noise.dfy ===
/**
 * `remove_noise`: one pass over the lines with the state
 * (in front-matter, number of `---` lines seen, lines kept so far). The
 * first two `---` lines are kept and toggle the front-matter flag; outside
 * front-matter, horizontal rules are dropped; a blank line right after a
 * kept blank line is dropped.
 */
module Noise {
  import opened Text
  import opened Lines

  /** `line.strip() == '---'`: a front-matter delimiter. */
  predicate IsFence(line: string)
  {
    Strip(line) == "---"
  }

  /** The noise patterns `^\s*---+\s*$` and `^\s*\*\*\*+\s*$`: stripped of
      surrounding whitespace, the line is three or more `-` or three or more `*`. */
  predicate IsRule(line: string)
  {
    |Strip(line)| >= 3 && (Strip(line) == Repeat('-', |Strip(line)|) || Strip(line) == Repeat('*', |Strip(line)|))
  }

  /** A line that is neither blank nor a horizontal rule. */
  predicate IsContent(line: string)
  {
    !IsBlank(line) && !IsRule(line)
  }

  /** The state of the loop: the front-matter flag, the number of `---`
      lines seen, and the lines kept so far. */
  datatype NoiseState = NoiseState(inFrontmatter: bool, fences: nat, cleaned: seq<string>)

  /** One iteration of the loop over the lines. */
  function Step(st: NoiseState, line: string): NoiseState
  {
    if IsFence(line) && st.fences < 2 then
      NoiseState(!st.inFrontmatter, st.fences + 1, st.cleaned + [line])
    else
      var fences := if IsFence(line) then st.fences + 1 else st.fences;
      if !st.inFrontmatter && IsRule(line) then st.(fences := fences)
      else if IsBlank(line) && |st.cleaned| > 0 && IsBlank(st.cleaned[|st.cleaned| - 1]) then st.(fences := fences)
      else NoiseState(st.inFrontmatter, fences, st.cleaned + [line])
  }

  /** The loop state after all of `lines`. */
  function Run(lines: seq<string>): NoiseState
    decreases |lines|
  {
    if |lines| == 0 then NoiseState(false, 0, [])
    else Step(Run(lines[..|lines| - 1]), lines[|lines| - 1])
  }

  /** The lines of `lines` that satisfy `p`, in order. */
  function Select(lines: seq<string>, p: string -> bool): (r: seq<string>)
    ensures |r| <= |lines|
    decreases |lines|
  {
    if |lines| == 0 then []
    else Select(lines[..|lines| - 1], p) + (if p(lines[|lines| - 1]) then [lines[|lines| - 1]] else [])
  }

  /** `a` is `b` with some lines left out, the rest in their order. */
  predicate IsSubsequence(a: seq<string>, b: seq<string>)
    decreases |b|
  {
    || |a| == 0
    || (&& |b| > 0
        && (|| (a[|a| - 1] == b[|b| - 1] && IsSubsequence(a[..|a| - 1], b[..|b| - 1]))
            || IsSubsequence(a, b[..|b| - 1])))
  }

  /** A subsequence is never longer. */
  lemma {:induction false} SubsequenceLength(a: seq<string>, b: seq<string>)
    requires IsSubsequence(a, b)
    ensures |a| <= |b|
    decreases |b|
  {
    if |a| > 0 {
      if a[|a| - 1] == b[|b| - 1] && IsSubsequence(a[..|a| - 1], b[..|b| - 1]) {
        SubsequenceLength(a[..|a| - 1], b[..|b| - 1]);
      } else {
        SubsequenceLength(a, b[..|b| - 1]);
      }
    }
  }

  /** No two blank lines in a row. */
  predicate NoAdjacentBlanks(lines: seq<string>)
  {
    forall i :: 0 <= i && i + 1 < |lines| ==> !(IsBlank(lines[i]) && IsBlank(lines[i + 1]))
  }

  /** The rule lines `remove_noise` keeps, stated by position alone: the first
      two `---` lines, and any other rule line met while exactly one `---`
      line has been seen. */
  function RulesKept(lines: seq<string>): seq<string>
    decreases |lines|
  {
    if |lines| == 0 then []
    else
      var prefix := lines[..|lines| - 1];
      var line := lines[|lines| - 1];
      var seen := |Select(prefix, IsFence)|;
      var kept := IsRule(line) && (if IsFence(line) then seen < 2 else seen == 1);
      RulesKept(prefix) + (if kept then [line] else [])
  }

  /** A `---` line is a rule, and a rule is never blank. */
  lemma FenceIsRule(line: string)
    ensures IsFence(line) ==> IsRule(line)
    ensures IsRule(line) ==> !IsBlank(line)
  {
    StripSpec(line);
  }

  /** The loop counts the `---` lines, and is inside front-matter exactly
      when it has seen one of them. */
  lemma {:induction false} RunFences(lines: seq<string>)
    ensures Run(lines).fences == |Select(lines, IsFence)|
    ensures Run(lines).inFrontmatter <==> |Select(lines, IsFence)| == 1
    decreases |lines|
  {
    if |lines| > 0 {
      RunFences(lines[..|lines| - 1]);
    }
  }

  /** The loop only ever drops lines: what it keeps is a subsequence. */
  lemma {:induction false} RunSubsequence(lines: seq<string>)
    ensures IsSubsequence(Run(lines).cleaned, lines)
    decreases |lines|
  {
    if |lines| > 0 {
      var prefix := lines[..|lines| - 1];
      RunSubsequence(prefix);
      var c := Run(prefix).cleaned;
      var after := Run(lines).cleaned;
      if after != c {
        assert after == c + [lines[|lines| - 1]] && after[..|after| - 1] == c;
      }
    }
  }

  /** The loop never keeps two blank lines in a row. */
  lemma {:induction false} RunNoAdjacentBlanks(lines: seq<string>)
    ensures NoAdjacentBlanks(Run(lines).cleaned)
    decreases |lines|
  {
    if |lines| > 0 {
      var prefix := lines[..|lines| - 1];
      var line := lines[|lines| - 1];
      RunNoAdjacentBlanks(prefix);
      FenceIsRule(line);
      var c := Run(prefix).cleaned;
      var after := Run(lines).cleaned;
      if after != c {
        assert after == c + [line];
        assert forall i :: 0 <= i < |c| ==> after[i] == c[i];
      }
    }
  }

  /** The other half of the blank-line rule: a blank line is kept exactly
      when nothing is kept yet or the last line kept is not blank. So the
      first blank line after a kept non-blank line is always kept; runs of
      blank lines separated only by dropped rules merge into one. */
  lemma RunKeepsBlank(lines: seq<string>, line: string)
    requires IsBlank(line)
    ensures var c := Run(lines).cleaned;
      && (Run(lines + [line]).cleaned == c + [line] <==> (|c| == 0 || !IsBlank(c[|c| - 1])))
      && (Run(lines + [line]).cleaned == c + [line] || Run(lines + [line]).cleaned == c)
  {
    var all := lines + [line];
    assert all[..|all| - 1] == lines && all[|all| - 1] == line;
    assert Run(all) == Step(Run(lines), line);
    FenceIsRule(line);
    assert !IsFence(line) && !IsRule(line);
  }

  /** A reference for the blank-line rule on lines without horizontal rules:
      a blank line goes exactly when the line before it in the input is
      blank too. */
  function Squeeze(lines: seq<string>): seq<string>
    decreases |lines|
  {
    if |lines| == 0 then []
    else
      var prefix := lines[..|lines| - 1];
      var line := lines[|lines| - 1];
      Squeeze(prefix) + (if IsBlank(line) && |prefix| > 0 && IsBlank(prefix[|prefix| - 1]) then [] else [line])
  }

  /** Without horizontal rules, the loop keeps exactly what the reference
      keeps: every run of blank lines shrinks to its first line, and every
      other line stays. */
  lemma {:induction false} RunSqueezes(lines: seq<string>)
    requires forall i :: 0 <= i < |lines| ==> !IsRule(lines[i])
    ensures Run(lines).cleaned == Squeeze(lines)
    ensures |lines| > 0 ==>
      (&& |Run(lines).cleaned| > 0
       && (IsBlank(Run(lines).cleaned[|Run(lines).cleaned| - 1]) <==> IsBlank(lines[|lines| - 1])))
    decreases |lines|
  {
    if |lines| > 0 {
      var prefix := lines[..|lines| - 1];
      var line := lines[|lines| - 1];
      assert forall i :: 0 <= i < |prefix| ==> prefix[i] == lines[i];
      RunSqueezes(prefix);
      FenceIsRule(line);
      var c := Run(prefix).cleaned;
      assert Run(lines) == Step(Run(prefix), line);
      if IsBlank(line) && |c| > 0 && IsBlank(c[|c| - 1]) {
        assert Run(lines).cleaned == c;
      } else {
        assert Run(lines).cleaned == c + [line];
      }
    }
  }

  /** `Select` on a line added at the end. */
  lemma SelectSnoc(lines: seq<string>, line: string, p: string -> bool)
    ensures Select(lines + [line], p) == Select(lines, p) + (if p(line) then [line] else [])
  {
    assert (lines + [line])[..|lines|] == lines;
  }

  /** What one step does with a `---` line, once the loop's flag and count agree. */
  lemma StepFence(st: NoiseState, line: string)
    requires st.fences >= 2 ==> !st.inFrontmatter
    ensures IsFence(line) && st.fences < 2 ==> Step(st, line).cleaned == st.cleaned + [line]
    ensures IsFence(line) && st.fences >= 2 ==> Step(st, line).cleaned == st.cleaned
    ensures Step(st, line).cleaned == st.cleaned || Step(st, line).cleaned == st.cleaned + [line]
  {
    FenceIsRule(line);
  }

  /** The bookkeeping behind `RunKeepsFirstFences`, for one more line. */
  lemma FirstFencesStep(c: seq<string>, fs: seq<string>, line: string, after: seq<string>, p: string -> bool)
    requires Select(c, p) == fs[..Min(2, |fs|)]
    requires p(line) && |fs| < 2 ==> after == c + [line]
    requires p(line) && |fs| >= 2 ==> after == c
    requires after == c || after == c + [line]
    ensures Select(after, p) == (fs + (if p(line) then [line] else []))[..Min(2, |fs + (if p(line) then [line] else [])|)]
  {
    if !p(line) {
      assert fs + [] == fs;
      if after != c {
        SelectSnoc(c, line, p);
      }
    } else if |fs| >= 2 {
      assert (fs + [line])[..2] == fs[..2];
    } else {
      SelectSnoc(c, line, p);
      assert fs[..Min(2, |fs|)] == fs;
      assert (fs + [line])[..|fs| + 1] == fs + [line];
    }
  }

  /** The `---` lines kept are exactly the first two of the input; every
      later one is dropped. */
  lemma {:induction false} RunKeepsFirstFences(lines: seq<string>)
    ensures Select(Run(lines).cleaned, IsFence)
      == Select(lines, IsFence)[..Min(2, |Select(lines, IsFence)|)]
    decreases |lines|
  {
    if |lines| > 0 {
      var prefix := lines[..|lines| - 1];
      var line := lines[|lines| - 1];
      assert lines == prefix + [line];
      RunKeepsFirstFences(prefix);
      RunFences(prefix);
      StepFence(Run(prefix), line);
      SelectSnoc(prefix, line, IsFence);
      FirstFencesStep(Run(prefix).cleaned, Select(prefix, IsFence), line, Run(lines).cleaned, IsFence);
    }
  }

  /** The rule lines kept are those `RulesKept` names: horizontal rules go
      unless they are one of the first two `---` lines or sit inside
      front-matter. */
  lemma {:induction false} RunKeepsRules(lines: seq<string>)
    ensures Select(Run(lines).cleaned, IsRule) == RulesKept(lines)
    decreases |lines|
  {
    if |lines| > 0 {
      var prefix := lines[..|lines| - 1];
      var line := lines[|lines| - 1];
      RunKeepsRules(prefix);
      RunFences(prefix);
      FenceIsRule(line);
      var c := Run(prefix).cleaned;
      var after := Run(lines).cleaned;
      if after != c {
        assert after == c + [line] && after[..|after| - 1] == c;
      }
    }
  }

  /** Every line that is neither blank nor a rule is kept, in order. */
  lemma {:induction false} RunKeepsContent(lines: seq<string>)
    ensures Select(Run(lines).cleaned, IsContent) == Select(lines, IsContent)
    decreases |lines|
  {
    if |lines| > 0 {
      var prefix := lines[..|lines| - 1];
      var line := lines[|lines| - 1];
      RunKeepsContent(prefix);
      FenceIsRule(line);
      var c := Run(prefix).cleaned;
      var after := Run(lines).cleaned;
      if after != c {
        assert after == c + [line] && after[..|after| - 1] == c;
      }
    }
  }

  /** One step, taken by the loop and by a second loop over the first one's
      output, keeps the second loop's state in step with the first's. */
  lemma StepOnOutput(st: NoiseState, again: NoiseState, line: string)
    requires again == NoiseState(st.inFrontmatter, Min(2, st.fences), st.cleaned)
    requires st.fences >= 2 ==> !st.inFrontmatter
    ensures Step(st, line).cleaned == st.cleaned ==>
      again == NoiseState(Step(st, line).inFrontmatter, Min(2, Step(st, line).fences), st.cleaned)
    ensures Step(st, line).cleaned != st.cleaned ==>
      Step(again, line) == NoiseState(Step(st, line).inFrontmatter, Min(2, Step(st, line).fences), Step(st, line).cleaned)
  {
    FenceIsRule(line);
  }

  /** Running the loop over its own output ends in the same place, except
      that at most two `---` lines are left to count. */
  lemma {:induction false} RunOnOutput(lines: seq<string>)
    ensures Run(Run(lines).cleaned)
      == NoiseState(Run(lines).inFrontmatter, Min(2, Run(lines).fences), Run(lines).cleaned)
    decreases |lines|
  {
    if |lines| > 0 {
      var prefix := lines[..|lines| - 1];
      var line := lines[|lines| - 1];
      RunOnOutput(prefix);
      RunFences(prefix);
      var c := Run(prefix).cleaned;
      StepOnOutput(Run(prefix), Run(c), line);
      var after := Run(lines).cleaned;
      if after != c {
        assert after == c + [line] && after[..|after| - 1] == c;
      }
    }
  }

  /** Removing noise from lines twice is the same as once. */
  lemma RemoveNoiseLinesIdempotent(lines: seq<string>)
    ensures RemoveNoiseLines(RemoveNoiseLines(lines)) == RemoveNoiseLines(lines)
  {
    RunOnOutput(lines);
  }

  /** Lines taken from newline-free lines are newline-free. */
  lemma {:induction false} SubsequenceOfLines(a: seq<string>, b: seq<string>)
    requires IsSubsequence(a, b)
    requires NoNewlines(b)
    ensures NoNewlines(a)
    decreases |b|
  {
    if |a| > 0 {
      var b' := b[..|b| - 1];
      assert forall i :: 0 <= i < |b'| ==> b'[i] == b[i];
      if a[|a| - 1] == b[|b| - 1] && IsSubsequence(a[..|a| - 1], b') {
        SubsequenceOfLines(a[..|a| - 1], b');
        assert forall i :: 0 <= i < |a| - 1 ==> a[i] == a[..|a| - 1][i];
      } else {
        SubsequenceOfLines(a, b');
      }
    }
  }

  /** `remove_noise` on the lines of a document: it keeps a subsequence of
      them, in order, with no two blank lines in a row. */
  function RemoveNoiseLines(lines: seq<string>): (r: seq<string>)
    ensures IsSubsequence(r, lines) && |r| <= |lines|
    ensures NoAdjacentBlanks(r)
  {
    RunSubsequence(lines);
    SubsequenceLength(Run(lines).cleaned, lines);
    RunNoAdjacentBlanks(lines);
    Run(lines).cleaned
  }

  /** `remove_noise` on a document. */
  function RemoveNoise(content: string): string
  {
    Join(RemoveNoiseLines(Split(content)))
  }

  /** Removing noise from a document twice is the same as once. */
  lemma RemoveNoiseIdempotent(content: string)
    ensures RemoveNoise(RemoveNoise(content)) == RemoveNoise(content)
  {
    var cleaned := RemoveNoiseLines(Split(content));
    if |cleaned| == 0 {
      assert Split("") == [""];
      assert Run([""]) == Step(Run([]), "");
    } else {
      SubsequenceOfLines(cleaned, Split(content));
      var ls: seq<Line> := cleaned;
      SplitJoin(ls);
      RunOnOutput(Split(content));
    }
  }
}

=== FILE: optimizer.dfy ===
/**
 * `optimize`: normalise the heading levels, remove the noise, cut off any
 * front-matter the document already has, and put a freshly generated header
 * in front of what is left.
 */
module Optimizer {
  import opened Text
  import opened Lines
  import opened Headings
  import opened Toc
  import opened Hierarchy
  import opened Noise
  import opened Frontmatter

  /** Cutting off leading front-matter: when the text starts with `---` and
      `---` occurs again further on, everything up to the end of that second
      `---` goes, and so do the newlines after it; `content.split('---', 2)`
      finds the second occurrence from index 3 on. */
  function StripFrontmatter(content: string): (r: string)
    ensures |r| <= |content| && r == content[|content| - |r|..]
    ensures !StartsWith(content, "---") ==> r == content
    ensures r != content ==> r == "" || r[0] != '\n'
  {
    if !StartsWith(content, "---") then content
    else
      match FindFrom(content, "---", 3)
      case None => content
      case Some(j) => LStripNewlines(content[j + 3..])
  }

  /** `j` is the first index from 3 on where `---` occurs: the end of the
      first part `content.split('---', 2)` makes after the opening `---`. */
  predicate FirstClose(content: string, j: nat)
  {
    3 <= j && OccursAt(content, "---", j) && forall i :: 3 <= i < j ==> !OccursAt(content, "---", i)
  }

  /** Where the cut falls: content that starts with `---` is cut right
      after the first `---` found from index 3 on, and left as it is when
      there is none; content that does not start with `---` is left alone. */
  lemma StripFrontmatterCut(content: string)
    ensures !StartsWith(content, "---") ==> StripFrontmatter(content) == content
    ensures StartsWith(content, "---") && (forall j :: 3 <= j ==> !OccursAt(content, "---", j)) ==>
      StripFrontmatter(content) == content
    ensures forall j: nat :: StartsWith(content, "---") && FirstClose(content, j) ==>
      StripFrontmatter(content) == LStripNewlines(content[j + 3..])
  {
    var found := FindFrom(content, "---", 3);
    forall j: nat | StartsWith(content, "---") && FirstClose(content, j)
      ensures StripFrontmatter(content) == LStripNewlines(content[j + 3..])
    {
      assert found.Some?;
      assert !(found.value < j) && !(j < found.value);
    }
  }

  /** For example, an empty header is cut off, whatever follows it. */
  lemma StripEmptyHeader(rest: string)
    ensures StripFrontmatter("---\n---" + rest) == LStripNewlines(rest)
  {
    var a := "---\n---" + rest;
    assert StartsWith(a, "---") by {
      assert a[..3] == "---";
    }
    assert FirstClose(a, 4) by {
      assert a[4..7] == "---";
      assert a[3..6][0] == '\n';
    }
    StripFrontmatterCut(a);
    DropPrefix("---\n---", rest);
  }

  /** An opening `---` is left in place, with everything after it, exactly
      when no closing `---` follows it: `split('---', 2)` then gives fewer
      than three parts. */
  lemma StripUnclosedHeader(rest: string)
    ensures StripFrontmatter("---" + rest) == "---" + rest <==> NoTripleDash(rest)
  {
    var c := "---" + rest;
    assert StartsWith(c, "---") by {
      assert c[..3] == "---";
    }
    if NoTripleDash(rest) {
      forall j | 3 <= j
        ensures !OccursAt(c, "---", j)
      {
        if j + 3 <= |c| {
          assert c[j..j + 3] == rest[j - 3..j];
          assert !OccursAt(rest, "---", j - 3);
        }
      }
      StripFrontmatterCut(c);
    } else {
      var k :| 0 <= k && k + 3 <= |rest| && OccursAt(rest, "---", k);
      assert c[k + 3..k + 6] == rest[k..k + 3];
      assert OccursAt(c, "---", k + 3);
      var found := FindFrom(c, "---", 3);
      assert found.Some?;
      assert |StripFrontmatter(c)| < |c|;
    }
  }

  /** A header whose inside holds no `---` is cut off exactly: what is left is
      the text after it, without leading newlines. */
  lemma StripFrontmatterOf(inner: string, rest: string)
    requires NoTripleDash(inner)
    ensures StripFrontmatter("---\n" + inner + "\n---" + rest) == LStripNewlines(rest)
  {
    var s := "---\n" + inner + "\n---" + rest;
    var p := 5 + |inner|;
    assert s[..3] == "---";
    assert s[p..p + 3] == "---";
    assert StartsWith(s, "---") && OccursAt(s, "---", p);
    forall j | 3 <= j < p
      ensures !OccursAt(s, "---", j)
    {
      if j == 3 {
        assert s[j..j + 3][0] == '\n';
      } else if j + 3 <= 4 + |inner| {
        assert s[j..j + 3] == inner[j - 4..j - 1];
        assert !OccursAt(inner, "---", j - 4);
      } else {
        assert s[4 + |inner|] == '\n';
        assert s[j..j + 3][4 + |inner| - j] == '\n';
      }
    }
    var found := FindFrom(s, "---", 3);
    assert found == Some(p) by {
      assert found.Some? && found.value <= p;
      assert !(found.value < p);
    }
    assert s[p + 3..] == rest;
  }

  /** The document once its headings are normalised, its noise removed and any
      old front-matter cut off: what the new header is computed from and
      placed in front of. */
  function Body(content: string): (body: string)
  {
    StripFrontmatter(RemoveNoise(NormalizeHeadingHierarchy(content)))
  }

  /** The values the new header lists. */
  datatype Metadata = Metadata(title: string, tokens: nat, concepts: seq<string>, toc: seq<TocEntry>, diagrams: seq<Diagram>)

  /** The header's values for `body`. Finding key concepts, suggesting diagrams
      and taking the stem of the source path are the parameters `conceptsOf`,
      `diagramsOf` and `stem`. */
  function MetadataOf(body: string, sourcePath: string, stem: string -> string,
                      conceptsOf: string -> seq<string>, diagramsOf: string -> seq<Diagram>): (m: Metadata)
    ensures m.tokens == EstimateTokens(body) && m.concepts == conceptsOf(body) && m.diagrams == diagramsOf(body)
    ensures |m.toc| == |ExtractHeadings(Split(body))|
    ensures m.title == Title(ExtractHeadings(Split(body)), sourcePath, stem)
    ensures forall k :: 0 <= k < |m.toc| ==>
      && m.toc[k].level == ExtractHeadings(Split(body))[k].level
      && m.toc[k].text == ExtractHeadings(Split(body))[k].text
      && m.toc[k].anchor == Anchor(m.toc[k].text)
    ensures forall k :: 0 <= k < |m.toc| ==> 1 <= m.toc[k].level <= 6 && IsAnchor(m.toc[k].anchor)
  {
    var lines := Split(body);
    Metadata(Title(ExtractHeadings(lines), sourcePath, stem), EstimateTokens(body), conceptsOf(body),
             GenerateToc(lines), diagramsOf(body))
  }

  function Render(m: Metadata): string
  {
    GenerateFrontmatter(m.title, m.tokens, m.concepts, m.toc, m.diagrams)
  }

  /** The new header, a blank line, and the body. */
  function Assemble(m: Metadata, body: string): (r: string)
    ensures StartsWith(r, "---\n")
    ensures |body| < |r| && r[|r| - |body|..] == body
  {
    Render(m) + "\n\n" + body
  }

  /** A header whose values hold no `---`, cut off again, gives the body back
      without its leading newlines. */
  lemma AssembleRoundTrip(m: Metadata, body: string)
    requires DashSafe(m.title, m.concepts, m.toc, m.diagrams)
    ensures StripFrontmatter(Assemble(m, body)) == LStripNewlines(body)
  {
    var inner := Join(Inner(m.title, m.tokens, m.concepts, m.toc, m.diagrams));
    GenerateFrontmatterInner(m.title, m.tokens, m.concepts, m.toc, m.diagrams);
    InnerNoTripleDash(m.title, m.tokens, m.concepts, m.toc, m.diagrams);
    var fm := Render(m);
    assert fm == "---\n" + inner + "\n---";
    Associate(fm, "\n\n", body);
    assert Assemble(m, body) == fm + ("\n\n" + body);
    StripFrontmatterOf(inner, "\n\n" + body);
    SkipBlankLine(body);
  }

  /** Leading newlines go, however many there are. */
  lemma SkipBlankLine(body: string)
    ensures LStripNewlines("\n\n" + body) == LStripNewlines(body)
  {
    assert ("\n\n" + body)[1..][1..] == body;
  }

  /** With single-line values, the lines of the result are the header's lines,
      one empty line, and the lines of the body. */
  lemma AssembleLines(m: Metadata, body: string)
    requires SingleLines(m.title, m.concepts, m.toc, m.diagrams)
    ensures Split(Assemble(m, body)) == FrontmatterLines(m.title, m.tokens, m.concepts, m.toc, m.diagrams) + [""] + Split(body)
  {
    var header := FrontmatterLines(m.title, m.tokens, m.concepts, m.toc, m.diagrams);
    SplitFrontmatter(m.title, m.tokens, m.concepts, m.toc, m.diagrams);
    JoinSplit(Render(m));
    assert Render(m) == Join(header);
    SplitAround(header, body);
  }

  /** Lines joined, a blank line, and a text split into lines, split again. */
  lemma SplitAround(header: seq<string>, body: string)
    requires |header| >= 1 && NoNewlines(header)
    ensures Split(Join(header) + "\n\n" + body) == header + [""] + Split(body)
  {
    var lines := Split(body);
    var all := header + [""] + lines;
    var h := Join(header);
    JoinSplit(body);
    JoinAppend([""], lines);
    assert Join([""]) == "" && "\n" + "\n" == "\n\n";
    assert Join([""] + lines) == "\n" + body;
    Associate(header, [""], lines);
    JoinAppend(header, [""] + lines);
    assert Join(all) == h + "\n" + ("\n" + body);
    Associate(h, "\n", "\n" + body);
    Associate("\n", "\n", body);
    Associate(h, "\n\n", body);
    NoNewlinesConcat(header, [""]);
    NoNewlinesConcat(header + [""], lines);
    SplitJoin(all);
  }

  /** `optimize`: the new header for the body, a blank line, and the body. */
  function Optimize(content: string, sourcePath: string, stem: string -> string,
                    conceptsOf: string -> seq<string>, diagramsOf: string -> seq<Diagram>): string
  {
    var body := Body(content);
    Assemble(MetadataOf(body, sourcePath, stem, conceptsOf, diagramsOf), body)
  }

  /** Optimising a document and cutting the header off again gives the body
      back, as long as none of the header's values holds `---`. */
  lemma OptimizeRoundTrip(content: string, sourcePath: string, stem: string -> string,
                          conceptsOf: string -> seq<string>, diagramsOf: string -> seq<Diagram>)
    requires var m := MetadataOf(Body(content), sourcePath, stem, conceptsOf, diagramsOf);
      DashSafe(m.title, m.concepts, m.toc, m.diagrams)
    ensures StripFrontmatter(Optimize(content, sourcePath, stem, conceptsOf, diagramsOf)) == LStripNewlines(Body(content))
  {
    var body := Body(content);
    AssembleRoundTrip(MetadataOf(body, sourcePath, stem, conceptsOf, diagramsOf), body);
  }

  /** When the header's values are single lines, the lines of the result are
      the header's lines, one empty line, and the lines of the body. */
  lemma OptimizeLines(content: string, sourcePath: string, stem: string -> string,
                      conceptsOf: string -> seq<string>, diagramsOf: string -> seq<Diagram>)
    requires var m := MetadataOf(Body(content), sourcePath, stem, conceptsOf, diagramsOf);
      SingleLines(m.title, m.concepts, m.toc, m.diagrams)
    ensures var m := MetadataOf(Body(content), sourcePath, stem, conceptsOf, diagramsOf);
      Split(Optimize(content, sourcePath, stem, conceptsOf, diagramsOf))
        == FrontmatterLines(m.title, m.tokens, m.concepts, m.toc, m.diagrams) + [""] + Split(Body(content))
  {
    var body := Body(content);
    AssembleLines(MetadataOf(body, sourcePath, stem, conceptsOf, diagramsOf), body);
  }
}

=== FILE: text.dfy ===
/**
 * The pieces of Python's `str` and `re` that the optimizer relies on:
 * character classes, trimming, substring search and decimal rendering.
 * Character classes are the ASCII parts of Python's Unicode classes.
 */
module Text {

  datatype Option<T> = None | Some(value: T)

  function Min(a: nat, b: nat): nat
  {
    if a <= b then a else b
  }

  /** `str.isspace()`, which is also what the regex class `\s` and `str.strip()` use. */
  predicate IsSpace(c: char)
  {
    c == ' ' || c == '\t' || c == '\n' || c == '\r' || c == '\U{0B}' || c == '\U{0C}'
    || ('\U{1C}' <= c <= '\U{1F}')
  }

  /** The regex class `\w`: letters, digits and the underscore. */
  predicate IsWordChar(c: char)
  {
    ('a' <= c <= 'z') || ('A' <= c <= 'Z') || ('0' <= c <= '9') || c == '_'
  }

  predicate IsUpper(c: char)
  {
    'A' <= c <= 'Z'
  }

  /** `str.lower()` on one character. */
  function ToLower(c: char): (d: char)
    ensures !IsUpper(d)
    ensures IsWordChar(d) == IsWordChar(c)
    ensures IsSpace(d) == IsSpace(c)
    ensures (d == '-') == (c == '-')
    ensures !IsUpper(c) ==> d == c
  {
    if IsUpper(c) then (c as int + 32) as char else c
  }

  function Lower(s: string): (r: string)
    ensures |r| == |s|
    ensures forall i :: 0 <= i < |s| ==> r[i] == ToLower(s[i])
  {
    if |s| == 0 then "" else [ToLower(s[0])] + Lower(s[1..])
  }

  /** The characters of `s` that satisfy `p`, in order. */
  function Keep(s: string, p: char -> bool): (r: string)
    ensures |r| <= |s|
    ensures forall i :: 0 <= i < |r| ==> p(r[i])
  {
    if |s| == 0 then "" else (if p(s[0]) then [s[0]] else "") + Keep(s[1..], p)
  }

  /** Keeping drops nothing exactly when every character satisfies `p`. */
  lemma {:induction false} KeepAll(s: string, p: char -> bool)
    ensures Keep(s, p) == s <==> forall i :: 0 <= i < |s| ==> p(s[i])
  {
    if |s| > 0 {
      KeepAll(s[1..], p);
      if !p(s[0]) {
        assert |Keep(s, p)| < |s|;
      } else {
        assert s == [s[0]] + s[1..];
        assert forall i :: 1 <= i < |s| ==> s[i] == s[1..][i - 1];
      }
    }
  }

  /** Keeping drops everything when no character satisfies `p`. */
  lemma {:induction false} KeepNone(s: string, p: char -> bool)
    requires forall i :: 0 <= i < |s| ==> !p(s[i])
    ensures Keep(s, p) == ""
  {
    if |s| > 0 {
      assert forall i :: 0 <= i < |s[1..]| ==> s[1..][i] == s[i + 1];
      KeepNone(s[1..], p);
    }
  }

  /** Keeping only ever keeps characters of `s`, so whatever holds of all of
      them holds of what is kept. */
  lemma {:induction false} KeepPreserves(s: string, p: char -> bool, q: char -> bool)
    requires forall i :: 0 <= i < |s| ==> q(s[i])
    ensures forall i :: 0 <= i < |Keep(s, p)| ==> q(Keep(s, p)[i])
  {
    if |s| > 0 {
      assert forall i :: 0 <= i < |s[1..]| ==> s[1..][i] == s[i + 1];
      KeepPreserves(s[1..], p, q);
    }
  }

  /** Keeping distributes over concatenation. */
  lemma {:induction false} KeepConcat(a: string, b: string, p: char -> bool)
    ensures Keep(a + b, p) == Keep(a, p) + Keep(b, p)
  {
    if |a| > 0 {
      KeepConcat(a[1..], b, p);
      assert (a + b)[1..] == a[1..] + b;
    } else {
      assert a + b == b;
    }
  }

  /** Keeping with a stronger test after a weaker one is keeping with the stronger. */
  lemma {:induction false} KeepKeep(s: string, p: char -> bool, q: char -> bool)
    requires forall c :: q(c) ==> p(c)
    ensures Keep(Keep(s, p), q) == Keep(s, q)
  {
    if |s| > 0 {
      KeepKeep(s[1..], p, q);
      var head := if p(s[0]) then [s[0]] else "";
      KeepConcat(head, Keep(s[1..], p), q);
    }
  }

  /** Lower-casing leaves a string without upper-case letters alone. */
  lemma LowerFixed(s: string)
    requires forall i :: 0 <= i < |s| ==> !IsUpper(s[i])
    ensures Lower(s) == s
  {
    assert forall i :: 0 <= i < |s| ==> Lower(s)[i] == s[i];
  }

  /** `c * n` for a one-character string `c`: `n` copies of `c`. */
  function Repeat(c: char, n: nat): (r: string)
    ensures |r| == n
    ensures forall i :: 0 <= i < n ==> r[i] == c
  {
    seq(n, _ => c)
  }

  /** `not s.strip()`: the string is empty or all whitespace. */
  predicate IsBlank(s: string)
  {
    forall i :: 0 <= i < |s| ==> IsSpace(s[i])
  }

  /** The character `#`, the heading marker. */
  predicate IsHash(c: char)
  {
    c == '#'
  }

  /** The character ` `, the indentation unit of the header's lists. */
  predicate IsPlainSpace(c: char)
  {
    c == ' '
  }

  /** The end of the run of characters passing `p` that starts at index `i`
      of `s`: the run passes only such characters and stops at the first
      other one. */
  function RunEnd(s: string, i: nat, p: char -> bool): (e: nat)
    requires i <= |s|
    ensures i <= e <= |s|
    ensures forall j :: i <= j < e ==> p(s[j])
    ensures e < |s| ==> !p(s[e])
    decreases |s| - i
  {
    if i < |s| && p(s[i]) then RunEnd(s, i + 1, p) else i
  }

  /** `str.strip()`: `s` with whitespace cut from both ends. */
  function Strip(s: string): string
  {
    if |s| > 0 && IsSpace(s[0]) then Strip(s[1..])
    else if |s| > 0 && IsSpace(s[|s| - 1]) then Strip(s[..|s| - 1])
    else s
  }

  /** What `Strip` leaves is empty exactly when `s` is blank, and otherwise
      starts and ends with a non-space character. */
  lemma {:induction false} StripSpec(s: string)
    ensures Strip(s) == "" <==> IsBlank(s)
    ensures Strip(s) != "" ==> !IsSpace(Strip(s)[0]) && !IsSpace(Strip(s)[|Strip(s)| - 1])
    decreases |s|
  {
    if |s| > 0 && IsSpace(s[0]) {
      StripSpec(s[1..]);
      assert IsBlank(s) <==> IsBlank(s[1..]);
    } else if |s| > 0 && IsSpace(s[|s| - 1]) {
      StripSpec(s[..|s| - 1]);
      assert IsBlank(s) <==> IsBlank(s[..|s| - 1]);
    }
  }

  /** What `Strip` leaves is a slice of `s` with only whitespace outside it. */
  lemma {:induction false} StripSlice(s: string)
    ensures exists a: nat, b: nat ::
      (&& a <= b <= |s| && Strip(s) == s[a..b]
       && (forall i :: 0 <= i < a || b <= i < |s| ==> IsSpace(s[i])))
    decreases |s|
  {
    if |s| > 0 && IsSpace(s[0]) {
      var t := s[1..];
      StripSlice(t);
      var a: nat, b: nat :| (&& a <= b <= |t| && Strip(t) == t[a..b]
        && (forall i :: 0 <= i < a || b <= i < |t| ==> IsSpace(t[i])));
      StripShift(s, t, 1, a, b);
      assert Strip(s) == s[a + 1..b + 1];
    } else if |s| > 0 && IsSpace(s[|s| - 1]) {
      var t := s[..|s| - 1];
      StripSlice(t);
      var a: nat, b: nat :| (&& a <= b <= |t| && Strip(t) == t[a..b]
        && (forall i :: 0 <= i < a || b <= i < |t| ==> IsSpace(t[i])));
      StripShift(s, t, 0, a, b);
      assert Strip(s) == s[a..b];
    } else {
      assert Strip(s) == s[0..|s|];
    }
  }

  /** One step of `StripSlice`: `t` is `s` without one whitespace character at
      its start (`d == 1`) or its end (`d == 0`), so a slice of `t` with only
      whitespace outside it is a slice of `s` with only whitespace outside it. */
  lemma StripShift(s: string, t: string, d: nat, a: nat, b: nat)
    requires |s| > 0 && d <= 1
    requires d == 1 ==> t == s[1..] && IsSpace(s[0])
    requires d == 0 ==> t == s[..|s| - 1] && IsSpace(s[|s| - 1])
    requires a <= b <= |t|
    requires forall i :: 0 <= i < a || b <= i < |t| ==> IsSpace(t[i])
    ensures a + d <= b + d <= |s| && s[a + d..b + d] == t[a..b]
    ensures forall i :: 0 <= i < a + d || b + d <= i < |s| ==> IsSpace(s[i])
  {
    assert |t| == |s| - 1;
    forall x | 0 <= x < |t|
      ensures t[x] == s[x + d]
    {
    }
    assert t[a..b] == s[a + d..b + d];
    forall i | 0 <= i < a + d || b + d <= i < |s|
      ensures IsSpace(s[i])
    {
      if d <= i < |t| + d {
        assert s[i] == t[i - d];
      }
    }
  }

  /** `str.lstrip('\n')`: `s` without its leading newlines. */
  function LStripNewlines(s: string): (r: string)
    ensures |r| <= |s| && r == s[|s| - |r|..]
    ensures forall i :: 0 <= i < |s| - |r| ==> s[i] == '\n'
    ensures r == "" || r[0] != '\n'
  {
    if |s| > 0 && s[0] == '\n' then LStripNewlines(s[1..]) else s
  }

  predicate StartsWith(s: string, prefix: string)
  {
    |prefix| <= |s| && s[..|prefix|] == prefix
  }

  /** `pat` occurs in `s` at index `j`. */
  predicate OccursAt(s: string, pat: string, j: nat)
  {
    j + |pat| <= |s| && s[j..j + |pat|] == pat
  }

  /** `s.find(pat, from)`: the first index at or after `from` where `pat` occurs. */
  function FindFrom(s: string, pat: string, from: nat): (r: Option<nat>)
    ensures r.Some? ==> from <= r.value && OccursAt(s, pat, r.value)
    ensures r.Some? ==> forall j :: from <= j < r.value ==> !OccursAt(s, pat, j)
    ensures r.None? ==> forall j :: from <= j ==> !OccursAt(s, pat, j)
    decreases |s| - from
  {
    if from + |pat| > |s| then None
    else if OccursAt(s, pat, from) then Some(from)
    else FindFrom(s, pat, from + 1)
  }

  /** No three consecutive `-` anywhere in `s`. */
  predicate NoTripleDash(s: string)
  {
    forall j :: 0 <= j && j + 3 <= |s| ==> !OccursAt(s, "---", j)
  }

  /** No two `-` in a row. */
  predicate NoDoubleDash(s: string)
  {
    forall i :: 0 <= i && i + 1 < |s| ==> !(s[i] == '-' && s[i + 1] == '-')
  }

  /** Without two dashes in a row there are no three. */
  lemma NoDoubleDashNoTriple(s: string)
    requires NoDoubleDash(s)
    ensures NoTripleDash(s)
  {
    forall j | 0 <= j && j + 3 <= |s|
      ensures !OccursAt(s, "---", j)
    {
      assert s[j..j + 3][0] == s[j] && s[j..j + 3][1] == s[j + 1];
    }
  }

  /** Gluing two strings without three dashes makes none, unless dashes meet
      at the seam. */
  lemma NoTripleDashConcat(a: string, b: string)
    requires NoTripleDash(a) && NoTripleDash(b)
    requires (|a| == 0 || a[|a| - 1] != '-') || (|b| == 0 || b[0] != '-')
    ensures NoTripleDash(a + b)
  {
    var s := a + b;
    forall j | 0 <= j && j + 3 <= |s|
      ensures !OccursAt(s, "---", j)
    {
      if j + 3 <= |a| {
        assert s[j..j + 3] == a[j..j + 3];
        assert !OccursAt(a, "---", j);
      } else if j >= |a| {
        assert s[j..j + 3] == b[j - |a|..j - |a| + 3];
        assert !OccursAt(b, "---", j - |a|);
      } else {
        assert s[j..j + 3][|a| - 1 - j] == a[|a| - 1] && s[j..j + 3][|a| - j] == b[0];
        assert a[|a| - 1] != '-' || b[0] != '-';
        assert s[j..j + 3] != "---";
      }
    }
  }

  function DigitChar(d: nat): (c: char)
    requires d < 10
    ensures '0' <= c <= '9'
  {
    ('0' as int + d) as char
  }

  predicate IsDigits(s: string)
  {
    forall i :: 0 <= i < |s| ==> '0' <= s[i] <= '9'
  }

  /** `str(n)` for a non-negative integer: decimal, without leading zeros. */
  function NatToString(n: nat): (r: string)
    ensures |r| >= 1 && IsDigits(r)
    ensures r[0] == '0' ==> r == "0"
  {
    if n < 10 then [DigitChar(n)] else NatToString(n / 10) + [DigitChar(n % 10)]
  }

  /** The number a string of decimal digits denotes. */
  function DecimalValue(s: string): nat
    requires IsDigits(s)
  {
    if |s| == 0 then 0 else 10 * DecimalValue(s[..|s| - 1]) + (s[|s| - 1] as int - '0' as int)
  }

  /** Reading back what `NatToString` wrote gives the number. */
  lemma {:induction false} DecimalRoundTrip(n: nat)
    ensures DecimalValue(NatToString(n)) == n
  {
    if n >= 10 {
      DecimalRoundTrip(n / 10);
      var r := NatToString(n);
      assert r[..|r| - 1] == NatToString(n / 10);
    }
  }
}

=== FILE: toc.dfy ===
/**
 * `generate_toc`: one table-of-contents entry per heading, with an anchor
 * made by lower-casing the heading text, dropping punctuation and turning
 * each run of dashes and whitespace into a single dash.
 */
module Toc {
  import opened Text
  import opened Headings

  /** One entry of `generate_toc`. */
  datatype TocEntry = TocEntry(level: nat, text: string, anchor: string)

  /** The characters `re.sub(r'[^\w\s-]', '', ...)` keeps. */
  predicate IsSlugChar(c: char)
  {
    IsWordChar(c) || IsSpace(c) || c == '-'
  }

  /** The characters runs of `[-\s]+` are made of. */
  predicate IsSeparator(c: char)
  {
    c == '-' || IsSpace(c)
  }

  predicate NotSeparator(c: char)
  {
    !IsSeparator(c)
  }

  /** The characters an anchor is made of. */
  predicate IsAnchorChar(c: char)
  {
    ('a' <= c <= 'z') || ('0' <= c <= '9') || c == '_' || c == '-'
  }

  /** What an anchor looks like: lower-case letters, digits, `_` and single dashes. */
  predicate IsAnchor(a: string)
  {
    (forall i :: 0 <= i < |a| ==> IsAnchorChar(a[i])) && NoDoubleDash(a)
  }

  /** `re.sub(r'[^\w\s-]', '', s)`. */
  function DropPunctuation(s: string): string
  {
    Keep(s, IsSlugChar)
  }

  /** `re.sub(r'[-\s]+', '-', s)`: each maximal run of dashes and whitespace
      becomes a single `-`. The result has no whitespace and no two dashes in
      a row, and starts with `-` exactly when `s` starts with a separator. */
  function CollapseSeparators(s: string): (r: string)
    ensures |r| <= |s|
    ensures |r| == 0 <==> |s| == 0
    ensures |s| > 0 ==> (r[0] == '-' <==> IsSeparator(s[0]))
    ensures forall i :: 0 <= i < |r| ==> !IsSpace(r[i])
    ensures NoDoubleDash(r)
    decreases |s|
  {
    if |s| == 0 then ""
    else if IsSeparator(s[0]) then "-" + CollapseSeparators(s[RunEnd(s, 0, IsSeparator)..])
    else [s[0]] + CollapseSeparators(s[1..])
  }

  /** Collapsing keeps every character that is not a separator, in order. */
  lemma {:induction false} CollapseKeeps(s: string)
    ensures Keep(CollapseSeparators(s), NotSeparator) == Keep(s, NotSeparator)
    decreases |s|
  {
    if |s| > 0 {
      if IsSeparator(s[0]) {
        var e := RunEnd(s, 0, IsSeparator);
        CollapseKeeps(s[e..]);
        assert s == s[..e] + s[e..];
        KeepConcat(s[..e], s[e..], NotSeparator);
        KeepNone(s[..e], NotSeparator);
        KeepConcat("-", CollapseSeparators(s[e..]), NotSeparator);
      } else {
        CollapseKeeps(s[1..]);
      }
    }
  }

  /** A property every non-separator of `s` has is shared by every character
      of the collapsed string that is not `-`. */
  lemma {:induction false} CollapsePreserves(s: string, p: char -> bool)
    requires forall i :: 0 <= i < |s| ==> IsSeparator(s[i]) || p(s[i])
    ensures forall i :: 0 <= i < |CollapseSeparators(s)| ==>
      CollapseSeparators(s)[i] == '-' || p(CollapseSeparators(s)[i])
    decreases |s|
  {
    if |s| > 0 {
      var r := CollapseSeparators(s);
      var next := if IsSeparator(s[0]) then RunEnd(s, 0, IsSeparator) else 1;
      var tail := s[next..];
      assert forall i :: 0 <= i < |tail| ==> tail[i] == s[next + i];
      CollapsePreserves(tail, p);
      assert forall i :: 1 <= i < |r| ==> r[i] == CollapseSeparators(tail)[i - 1];
    }
  }

  /** Collapsing leaves a string alone exactly when it has no whitespace and
      no two dashes in a row. */
  lemma {:induction false} CollapseFixed(s: string)
    ensures CollapseSeparators(s) == s <==>
      (forall i :: 0 <= i < |s| ==> !IsSpace(s[i])) && NoDoubleDash(s)
    decreases |s|
  {
    if |s| > 0 && (forall i :: 0 <= i < |s| ==> !IsSpace(s[i])) && NoDoubleDash(s) {
      var tail := s[1..];
      assert forall i :: 0 <= i < |tail| ==> tail[i] == s[i + 1];
      CollapseFixed(tail);
      if IsSeparator(s[0]) {
        assert |s| > 1 ==> s[1] != '-' && !IsSpace(s[1]);
        assert RunEnd(s, 1, IsSeparator) == 1;
      }
      assert s == [s[0]] + tail;
    }
  }

  /** A reference for collapsing, stated one character at a time: every
      separator becomes `-` unless the character before it is a separator
      too, and every other character stays. `afterSep` says whether the
      character before `s` was a separator. */
  function Mark(s: string, afterSep: bool): string
  {
    if |s| == 0 then ""
    else if IsSeparator(s[0]) then (if afterSep then "" else "-") + Mark(s[1..], true)
    else [s[0]] + Mark(s[1..], false)
  }

  /** Inside a run of separators the reference writes nothing more. */
  lemma {:induction false} MarkSkipsRun(s: string, i: nat)
    requires i <= |s|
    ensures Mark(s[i..], true) == Mark(s[RunEnd(s, i, IsSeparator)..], true)
    decreases |s| - i
  {
    if i < |s| && IsSeparator(s[i]) {
      MarkSkipsRun(s, i + 1);
      assert s[i..][1..] == s[i + 1..];
    }
  }

  /** Collapsing agrees with the reference: each maximal run of dashes and
      whitespace becomes one `-` in its place, and nothing else changes. */
  lemma {:induction false} CollapseIsMark(s: string)
    ensures CollapseSeparators(s) == Mark(s, false)
    decreases |s|
  {
    if |s| > 0 {
      if IsSeparator(s[0]) {
        var e := RunEnd(s, 0, IsSeparator);
        assert RunEnd(s, 1, IsSeparator) == e;
        MarkSkipsRun(s, 1);
        CollapseIsMark(s[e..]);
        assert e == |s| || !IsSeparator(s[e..][0]);
      } else {
        CollapseIsMark(s[1..]);
      }
    }
  }

  /** For example, the space in "a b" becomes a dash rather than vanishing. */
  lemma CollapseExample()
    ensures CollapseSeparators("a b") == "a-b"
  {
    assert "b"[1..] == "" && CollapseSeparators("b") == "b";
    assert RunEnd(" b", 0, IsSeparator) == 1 && " b"[1..] == "b";
    assert CollapseSeparators(" b") == "-b";
    assert "a b"[1..] == " b";
  }

  /** The anchor `generate_toc` makes from a heading's text. */
  function Anchor(text: string): (a: string)
  {
    CollapseSeparators(DropPunctuation(Lower(text)))
  }

  /** An anchor is made of lower-case letters, digits, `_` and single dashes,
      and keeps every letter, digit and `_` of the lower-cased text, in order. */
  lemma AnchorSpec(text: string)
    ensures IsAnchor(Anchor(text))
    ensures Keep(Anchor(text), IsWordChar) == Keep(Lower(text), IsWordChar)
    ensures Anchor(text) == Mark(Keep(Lower(text), IsSlugChar), false)
  {
    CollapseIsMark(DropPunctuation(Lower(text)));
    var lower := Lower(text);
    var d := DropPunctuation(lower);
    KeepPreserves(lower, IsSlugChar, c => !IsUpper(c));
    assert forall i :: 0 <= i < |d| ==> IsSlugChar(d[i]) && !IsUpper(d[i]);
    CollapsePreserves(d, IsAnchorChar);
    CollapseKeeps(d);
    KeepKeep(CollapseSeparators(d), NotSeparator, IsWordChar);
    KeepKeep(d, NotSeparator, IsWordChar);
    KeepKeep(lower, IsSlugChar, IsWordChar);
  }

  /** An anchor is its own anchor, so making an anchor twice changes nothing. */
  lemma AnchorIdempotent(text: string)
    ensures Anchor(Anchor(text)) == Anchor(text)
  {
    var a := Anchor(text);
    AnchorSpec(text);
    LowerFixed(a);
    KeepAll(a, IsSlugChar);
    CollapseFixed(a);
  }

  /** `generate_toc` over a list of headings. */
  function TocOf(hs: seq<Heading>): (toc: seq<TocEntry>)
    ensures |toc| == |hs|
    ensures forall k :: 0 <= k < |hs| ==> toc[k] == TocEntry(hs[k].level, hs[k].text, Anchor(hs[k].text))
  {
    if |hs| == 0 then [] else [TocEntry(hs[0].level, hs[0].text, Anchor(hs[0].text))] + TocOf(hs[1..])
  }

  /** `generate_toc`: one entry per heading of the document, in the same
      order, with the heading's level and text and a well-formed anchor.
      The lines are those of `Split`, without newlines (see `MatchHeading`). */
  function GenerateToc(lines: seq<string>): (toc: seq<TocEntry>)
    ensures |toc| == |ExtractHeadings(lines)|
    ensures forall k :: 0 <= k < |toc| ==>
      toc[k].level == ExtractHeadings(lines)[k].level && toc[k].text == ExtractHeadings(lines)[k].text
    ensures forall k :: 0 <= k < |toc| ==> 1 <= toc[k].level <= 6 && IsAnchor(toc[k].anchor)
    ensures forall k :: 0 <= k < |toc| ==> toc[k].anchor == Anchor(toc[k].text)
  {
    var hs := ExtractHeadings(lines);
    assert forall k :: 0 <= k < |hs| ==> IsAnchor(Anchor(hs[k].text)) by {
      forall k | 0 <= k < |hs| {
        AnchorSpec(hs[k].text);
      }
    }
    TocOf(hs)
  }
}
